=== FILE: README.md ===
# clay_blueprint in Dafny

`clay_blueprint` is a small Ruby fixture library. `ClayBlueprint::Clay.define(name, options) { |f| ... }` registers a
*blueprint*: a prototype object of a target class, with the block bound to it as its *creation block*.
`ClayBlueprint::Clay(name, overrides)` produces a new instance. It allocates an object of the
prototype's class, replays the creation block on it, and then applies the overrides. Inside the block, DSL calls such as
`f.age 10` are unknown methods. `method_missing` turns them into `set_clay_attribute`, which does two things:

- it either calls a native writer, or assigns the instance variable and synthesizes a reader on that one object;
- it records the pair in the per-object tracking map `clay_attributes`.

This project models that core as pure functions over an immutable `World`, made of:

- the blueprint registry;
- the environment of top-level classes;
- a heap of objects, where an object's identity is its index.

It proves the properties the library promises:

- duplicate definitions are refused unless forced;
- a forced redefinition takes effect;
- blueprints that name the same class share it;
- every instantiation yields a new, independent object;
- overrides take precedence over the block's base attributes, and unset attributes read as nil;
- nested blueprints inside a block produce associated instances;
- the tracking map holds exactly the attributes that were set, each with its final value;
- set attributes read back through the synthesized readers;
- instantiating a blueprint with literal arguments succeeds exactly when its block's calls are accepted and its options can be set.

Modules:

| file | module | models |
|---|---|---|
| `types.dfy` | `ClayTypes` | objects, values, blocks, prototypes, the world, the errors, and the last-write-wins map of an option list |
| `attribute_store.dfy` | `ExtendClayClass` | the mixin: setting, tracking, reading, `method_missing`, overrides, block binding |
| `registry.dfy` | `ClayRegistry` | `Clay.define` and the duplicate guard |
| `factory.dfy` | `ClayFactory` | `ClayBlueprint.Clay`: instantiation, block replay, argument evaluation |
| `properties.dfy` | `ClayProperties` | what instantiation produces, across the operations |
| `replay.dfy` | `ClayReplay` | exactly when block replay and instantiation go through, and reading attributes back |
| `scenarios.dfy` | `ClayScenarios` | the library's own usage scenarios |

Where the library's description and its code differ, the model follows the code:

- **The `:class` option is put through `classify` as well.** The target class is `classify(options[:class] || name)`
  (lib/clay_blueprint.rb:41).
- **A failed `define` can still create a class.** When no block is given, the target class is created before
  `clay_creation_block` raises (lib/clay_blueprint.rb:49, 53). The registry is not changed.
- **A DSL call whose name the object already answers does not reach `method_missing`.** Ruby sends it to the
  existing reader, which takes no argument, so it raises `ArgumentError`. This happens in two cases:
  - a block sets the same attribute twice, because the first call synthesized the reader;
  - a top-level class that `define` reuses has an `attr_reader` or `attr_accessor` for the name.

  The model keeps the dispatch the code performs (`RepeatedDslCallFails`, `NativeReaderRejectsDslCall`,
  `ExistingAccessorScenario`). A block call written `f.name = value` instead goes to the class's native writer
  (`NativeWriterCall`, `NativeWriterScenario`).

  The test at test/clay_blueprint_test.rb:77-90 is not this case, mainly because of inflection. The library pins
  activesupport 2.3.8 (lib/clay_blueprint.rb:3), whose `classify` singularizes before it camelizes. Its rule for
  a trailing `s` turns "emacs" into "Emac", so `define(:emacs)` targets a class `Emac`. It would not reuse a
  top-level `Emacs` even if one existed. (The test's `class Emacs` is opened inside the test class in any case,
  so it is a nested constant.) `define` creates an empty top-level `Emac`, `e.name "Editor"` reaches
  `method_missing`, and the instance reads `name` as "Editor" (`EmacsScenario`). The reuse case is stated for a
  blueprint `editor` whose class `Editor` exists (`ExistingAccessorScenario`).
- **The class name must be a constant name.** `Object.const_defined?` raises `NameError` for a name that is not a
  constant name (lib/clay_blueprint.rb:43), for example `Admin::User` or `My-fixture`. `define` then stops after the
  duplicate check and changes nothing.

## Model

| member | source | states |
|---|---|---|
| ExtendClayClass.SetClayAttribute | lib/clay_blueprint.rb:98-106 | Succeeds exactly when the class has a writer `name=` or `@name` is a valid instance variable name; otherwise raises `NameError`. On success it assigns the attribute and tracks the pair on either path. The singleton readers grow by exactly the reader `name` when the class has no writer and the object does not already answer `name`, and by nothing otherwise. Afterwards the object answers `name` and reads back the value, unless the class has only a writer. The class never changes. |
| ExtendClayClass.RecordClayAttribute | lib/clay_blueprint.rb:89-96 | `clay_attributes(name, value)` creates the tracking map if needed and records `name -> value`. Every other tracked key keeps its value, and nothing else about the object changes. |
| ExtendClayClass.ReadAttribute | lib/clay_blueprint.rb:103-114 | Reading an attribute gives the stored value through a reader. It gives nil when the object has no reader for it (a `method_missing` call with no argument) or when the value was never assigned. |
| ExtendClayClass.MethodMissing | lib/clay_blueprint.rb:108-114 | A missing call with a blank name or no argument returns nil and changes nothing. Otherwise it succeeds exactly when setting the first argument does, and returns that argument. It leaves the object as `set_clay_attribute` does: the attribute is assigned and tracked, and the reader is synthesized when one is needed. |
| ExtendClayClass.Send | lib/clay_blueprint.rb:108-114 | A call `n=` to a native writer succeeds exactly when it has one argument: it assigns `@n`, returns the argument, tracks nothing and synthesizes no reader; otherwise it raises `ArgumentError`. Any other call the object answers with a reader raises `ArgumentError` when it has arguments. A call the object does not answer goes to `method_missing`. A call with no arguments is a read and changes nothing. The class never changes. |
| ExtendClayClass.OverrideClayAttribute | lib/clay_blueprint.rb:79-83 | Succeeds exactly when every key is settable on the class. On success the instance variables are the old ones updated by the pairs in order, with the last occurrence winning, and the tracking map is updated the same way. A failure is the `NameError` of some key. |
| ExtendClayClass.ClayCreationBlock | lib/clay_blueprint.rb:69-77 | With a block, it binds and returns that block. Without one, it returns the bound block and changes nothing, or raises `InvalidClayCreationBlock` exactly when none is bound. |
| ExtendClayClass.BindThenGet | lib/clay_blueprint.rb:69-77 | Binding a block and then asking for it returns that same block, and asking leaves the prototype as it was. |
| ExtendClayClass.SetLastWins | lib/clay_blueprint.rb:98-106 | Setting an attribute twice is the same as setting it once to the second value. |
| ExtendClayClass.SetCommutes | lib/clay_blueprint.rb:79-83 | Setting two different attributes gives the same object in either order, so the order of distinct override keys does not matter. |
| ClayRegistry.CheckDuplicateDefinition | lib/clay_blueprint.rb:58-63 | Raises `DuplicateClayDefinition(name)` exactly when the name is already registered and `:force` is not given. |
| ClayRegistry.ResolveClass | lib/clay_blueprint.rb:43-52 | An existing class of that name is reused unchanged. Otherwise exactly one new, empty class is added under the name, and every other class stays as it was. |
| ClayRegistry.Define | lib/clay_blueprint.rb:40-56 | A duplicate without `:force` raises before anything changes. Otherwise a target class name that is not a constant name raises `NameError` and changes nothing. Otherwise it succeeds exactly when a block is given. Then the prototype has class `classify(options[:class] \|\| name)` and the given block, and is stored under the name. A missing block raises `InvalidClayCreationBlock` and leaves the registry unchanged, although the class is still resolved. Other entries, the heap, and the fact that every stored prototype has a block are all preserved. |
| ClayRegistry.SharedClassDefinitions | lib/clay_blueprint.rb:41-52 | Two blueprints defined with the same `:class` both get class `classify(class)`. The second definition adds no class, and each prototype keeps its own block. |
| ClayFactory.WithoutClass | lib/clay_blueprint.rb:19 | `options.delete(:class)` leaves no `class` key and keeps every other pair, and it adds nothing. |
| ClayFactory.Instantiate | lib/clay_blueprint.rb:17-28 | An unregistered name raises `InvalidClay(name)` and changes nothing. On success the result is a new object, one that did not exist before, of the prototype's class. No existing object, registry entry or class changes. A registry built by `define` never makes instantiation raise `InvalidClayCreationBlock`. |
| ClayFactory.CopyClayAttributes | lib/clay_blueprint.rb:85-87 | Replaying the prototype's block touches only the target object among the existing ones and keeps its class. It raises `InvalidClayCreationBlock` only when the prototype has no block, or when the registry holds some prototype without one, which a nested `Clay(...)` in the block could reach. |
| ClayFactory.RunBlock | lib/clay_blueprint.rb:86-114 | Replaying a block changes no existing object except the target, whose class is kept, and leaves the registry and classes as they were. Objects are only added. A registry built by `define` never makes it raise `InvalidClayCreationBlock`. |
| ClayFactory.SendTo | lib/clay_blueprint.rb:108-114 | A DSL call on a live object updates that object exactly as dispatch does and touches no other object. A failed call changes nothing. |
| ClayFactory.EvalArgs | test/clay_blueprint_test.rb:33-36 | Evaluating a call's arguments yields one value per argument, changes no existing object, registry entry or class, and never raises `InvalidClayCreationBlock` for a registry built by `define`. |
| ClayProperties.EvalLiteralArgs | test/clay_blueprint_test.rb:29-30 | Literal arguments evaluate to their own values, in order, and change nothing. |
| ClayProperties.EvalNested | test/clay_blueprint_test.rb:35 | A nested `Clay(n, ov)` argument that evaluates yields a reference to the object that instantiating `n` with `ov` returns, in the world that instantiation leaves. |
| ClayProperties.RunLiteralBlock | lib/clay_blueprint.rb:85-87 | Replaying a block of literal DSL calls that succeeds allocates nothing. It writes exactly the block's writes to the instance variables, in order: native writer calls write their attribute, and the other calls write the attribute they name. It tracks exactly the calls that are not native writer calls. |
| ClayProperties.InstantiateLiteral | lib/clay_blueprint.rb:17-28 | A successful instantiation of a literal blueprint adds exactly one object. Its instance variables are the block's writes followed by the options other than `class`, last write winning. Its tracking map holds the block's tracked calls followed by those options, and is nil when there are none. |
| ClayProperties.WithoutClassAsMap | lib/clay_blueprint.rb:19 | As a map, the options after `delete(:class)` are the options without the key `class`. |
| ClayProperties.OverridePrecedence | lib/clay_blueprint.rb:25-26 | For every attribute of a new instance: an option other than `class` wins, both tracked and assigned. Otherwise a tracked block value stays tracked, and a written block value is the instance variable. An attribute neither tracked by the block nor given as an option is untracked, and one that nothing wrote reads as nil. |
| ClayProperties.InstancesAreIndependent | lib/clay_blueprint.rb:22-24 | Two successful instantiations in a row return different objects. The second leaves the first's object unchanged, and a later DSL call on one instance does not change the other. |
| ClayProperties.NestedAssociation | test/clay_blueprint_test.rb:26-44 | A DSL call whose argument is a nested `Clay(n, ov)` stores and tracks a reference to a fresh instance of `n`'s class. When `n`'s own block takes literal arguments, that instance tracks `n`'s base attributes updated by `ov`. |
| ClayProperties.RepeatedDslCallFails | lib/clay_blueprint.rb:103-114 | A block that issues the same DSL call twice, on a class without a writer for it, raises `ArgumentError`. |
| ClayProperties.NativeReaderRejectsDslCall | lib/clay_blueprint.rb:108-114 | On a top-level class that already has a reader for the attribute (say through `attr_accessor`), the DSL call `f.attr value` goes to that reader, not to `method_missing`, and raises `ArgumentError` instead of setting the attribute. |
| ClayProperties.NativeWriterCall | lib/clay_blueprint.rb:99-100 | A block call `f.n = v` on a class with the native writer `n=` succeeds. It changes only the target object's `@n`, which then reads `v` when the class has the reader, and it tracks nothing. |
| ClayProperties.ForcedRedefinitionTakesEffect | lib/clay_blueprint.rb:40-63 | A forced redefinition succeeds exactly when the target class name is a constant name, and then stores the new class and block under the name. Instantiating the name afterwards yields an object of the new class, for any block. For a block with literal arguments, that object tracks the new block's attributes followed by the options. |
| ClayProperties.RefusedRedefinitionKeepsOld | lib/clay_blueprint.rb:58-63 | Redefining a registered name without `:force` raises `DuplicateClayDefinition`, and instantiating the name afterwards behaves exactly as before. |
| ClayReplay.RunLiteralAccepts | lib/clay_blueprint.rb:108-114 | Replaying a block of literal DSL calls succeeds exactly when every call with arguments is accepted. A call `n=` to a native writer is accepted when it has exactly one argument. Any other call is accepted when the object does not answer its name, and the name is blank, has a native writer, or is a valid instance variable name that no earlier call assigned. The nesting bound plays no part. |
| ClayReplay.InstantiateSucceeds | lib/clay_blueprint.rb:17-28 | Instantiating a literal blueprint succeeds exactly when its block is accepted on a fresh object of its class and every option other than `class` can be set on that class. |
| ClayReplay.OverrideResponds | lib/clay_blueprint.rb:79-83 | Overrides never take a reader away, and afterwards the object answers every key that has no native writer. |
| ClayReplay.RunLiteralResponds | lib/clay_blueprint.rb:98-106 | A successful literal block never takes a reader away, and afterwards the object answers every non-blank name the block assigned without a native writer. |
| ClayReplay.ReadBack | lib/clay_blueprint.rb:103 | On a new instance, every attribute that was written and has no native writer reads back its final value: the override if given, else the block's last write. |
| ClayReplay.PlainInstance | lib/clay_blueprint.rb:17-28 | Suppose a literal blueprint's class has no accessors, its block is accepted, and its options can be set. Then instantiation succeeds, the tracking map holds exactly the set attributes (nil when none were set), each of them reads back its final value, and every other attribute reads as nil. |
| ClayScenarios.FooScenario | test/clay_blueprint_test.rb:5-17 | Whether `Foo` is absent or is the empty class an earlier run of the same setup created, a forced define of `foo` goes through, and `Clay(:foo)` reads `name` as "Hemant Kumar" and `age` as 10, and tracks exactly those two attributes. |
| ClayScenarios.OverrideScenario | test/clay_blueprint_test.rb:47-59 | `Clay(:bar, :name => "Hemant")` reads `name` as "Hemant" and `age` as 12. |
| ClayScenarios.LessonDefinitions | test/clay_blueprint_test.rb:92-104 | Both `Lesson` blueprints are stored with the same class, which has no accessors. |
| ClayScenarios.LessonInstances | test/clay_blueprint_test.rb:106-116 | Instances of both blueprints have the shared class. The first reads `name` 'foo', `content` 'bar' and `size` 10. The second reads `name` 'lesson1' and `size` 20, and reads `content` as nil. |
| ClayScenarios.AssociationScenario | test/clay_blueprint_test.rb:26-44 | After defining `x` and `y`, `Clay(:y)` reads `sex` as 'm', and its `profile` is another object that reads `name` as "x" and `age` as 20. |
| ClayScenarios.EmacsScenario | test/clay_blueprint_test.rb:77-90 | With `classify("emacs") == "Emac"`, as activesupport 2.3.8 gives it, and no class `Emac`, `define(:emacs)` creates `Emac`, and `Clay(:emacs)` reads `name` as "Editor". |
| ClayScenarios.ExistingAccessorScenario | lib/clay_blueprint.rb:43-52 | For a blueprint `editor` whose class `Editor` already exists with `attr_accessor :name`, `define` reuses that class, and the block call `e.name "Editor"` makes instantiation raise `ArgumentError`. |
| ClayScenarios.NativeWriterScenario | lib/clay_blueprint.rb:99-100 | For the same blueprint and class, the block call `e.name = "Editor"` goes through the writer. The instance reads `name` as "Editor" and tracks nothing. |
| ExtendClayClass.FreshObject | lib/clay_blueprint.rb:23-24 | A newly allocated object has no tracking map. It answers exactly its class's readers, and every attribute reads as nil. |
| ExtendClayClass.AttributesNilUntilSet | lib/clay_blueprint.rb:89-91 | `clay_attributes` with no argument stays nil until something is set. It then holds every pair set so far, with the last value winning, and a read leaves it nil. |
| ClayRegistry.ClassNameSource | lib/clay_blueprint.rb:41 | The target class name is `classify` of the `:class` option when given, so two blueprints with the same `:class` get the same name; otherwise it is `classify` of the blueprint's name. |
| ClayTypes.AsMapAppend | lib/clay_blueprint.rb:79-83 | Applying one list of pairs and then another is the same as applying their concatenation. |
| ClayTypes.AsMapLastWins | lib/clay_blueprint.rb:79-83 | A key gets the value of its last occurrence in the list. |

## Left out

- `find_clay_blueprints` (lib/clay_blueprint.rb:30-34) loads files from disk. It is I/O and is not modelled.
- ActiveSupport's `classify` is a parameter of `Define` (any function from string to string). Its inflection rules are not modelled; the scenarios take the names activesupport 2.3.8 gives for their blueprints ("foo" to "Foo", "emacs" to "Emac", and so on) as premises.
- Native writers and readers are assumed to behave like `attr_writer` and `attr_reader` on the instance variable of the same name. Custom accessor code is not modelled.
- Methods an object inherits from `Object`, and the mixin's own method names, are not part of the dispatch model. A DSL call named like one of them is treated as a missing method.
- Ruby symbol and string keys are not distinguished; attribute names are strings.
- An attribute named like the mixin's own instance variables (`clay_attributes`, `clay_creation_block`) is not distinguished from other attributes.
- The prototype object that `define` allocates is kept only in the registry, not in the heap, since nothing but its class and block is ever read.
- Creation blocks are abstracted to sequences of DSL calls whose arguments are literals or nested `Clay(...)` calls. Other Ruby code in a block is not modelled.
- ClayFactory.Instantiate: a blueprint that reaches itself through nested `Clay(...)` calls is cut off by a `fuel` bound that raises `StackLevelTooDeep`. This stands for the interpreter's stack exhaustion; the depth at which that happens is not modelled, and no termination claim is made.
- ClayFactory.Instantiate: when an override raises, the source has already applied the earlier pairs to an object that nothing references. The model returns the error without that partly updated object.
- ClayRegistry.ConstName: a constant name is an ASCII upper-case letter followed by letters, digits and `_`. Non-ASCII constant names are not modelled. Nested paths such as `Admin::User` are rejected, as `const_defined?` did in the Ruby of activesupport 2.3.8; later Rubies resolve them.
- ClayFactory.RunBlock: its own contract states only what a replay may change. How it changes the target is stated for blocks of literal calls (ClayProperties.RunLiteralBlock, ClayReplay.RunLiteralAccepts) and for a one-call block with a nested argument (ClayProperties.NestedAssociation), not for arbitrary mixes of nested calls.
- ClayFactory.EvalArgs: the values are stated by ClayProperties.EvalLiteralArgs and ClayProperties.EvalNested, for all-literal argument lists and for a single nested argument. Mixed argument lists are covered only by the contract's frame.
- ClayFactory.Instantiate: `options.delete(:class)` (lib/clay_blueprint.rb:19) removes `:class` from the caller's own hash, even when `InvalidClay` is raised next. The model's options are an immutable value, so that side effect on the caller is not modelled.
- ClayProperties.NestedAssociation: stated for a DSL call that is not a native writer call, and for a nested blueprint whose own block takes literal arguments. A writer call `f.n = Clay(...)` is covered only for literal arguments, by NativeWriterCall. Deeper nesting is covered only by the frame contracts of ClayFactory.RunBlock and ClayFactory.EvalArgs.
- ClayProperties.NativeReaderRejectsDslCall: requires the attribute to be an identifier, as `attr_accessor` demands of its names.
- ClayProperties.RunLiteralBlock, InstantiateLiteral, OverridePrecedence, and the ClayReplay lemmas: these are stated for blocks whose DSL calls take literal arguments. Nested arguments are covered separately by NestedAssociation, for a block of one call.
- `Object.const_get` returning a constant that is not a class is not modelled; a class name denotes a class or nothing.
- The test suite embedded in lib/clay_blueprint.rb (from line 120) and the test files are cited as evidence of intent, not modelled.
- Thread safety of the class-variable registry is not modelled; the model is single-threaded.

=== FILE: attribute_store.dfy ===
/** The per-instance attribute store: the `ExtendClayClass` mixin every
    prototype and every instance is extended with.

    Setting an attribute goes through a native writer `name=` when the class
    has one; otherwise it assigns the instance variable `@name` and, when the
    object does not yet answer `name`, synthesizes a reader for it on that one
    object. Either way the pair is recorded in the tracking map
    `@clay_attributes`. DSL calls `f.name value` reach the store only through
    `method_missing`, that is only while the object has no method `name`; a
    call `f.name = value` on a class with a native writer goes to that writer
    and bypasses the store.
 */
module ExtendClayClass {
  import opened ClayTypes

  /** Characters Ruby accepts in an identifier (any non-ASCII character
      counts as a letter). */
  predicate IdentStart(c: char) {
    ('a' <= c <= 'z') || ('A' <= c <= 'Z') || c == '_' || c as int > 127
  }

  predicate IdentChar(c: char) {
    IdentStart(c) || ('0' <= c <= '9')
  }

  /** `instance_variable_set("@" + n, ...)` accepts `n` only when `@n` is a
      well-formed instance variable name; otherwise it raises NameError. */
  predicate IvarName(n: string) {
    |n| > 0 && IdentStart(n[0]) && forall i :: 1 <= i < |n| ==> IdentChar(n[i])
  }

  /** `respond_to?("name=")`: the object's class defines a writer. */
  predicate HasWriter(classes: map<string, ClassDef>, o: Obj, name: string) {
    name in ClassOf(classes, o.cls).writers
  }

  /** `sel` is the selector `n=` of a native writer `n`. */
  predicate IsWriterSelector(writers: set<string>, sel: string) {
    |sel| > 0 && sel[|sel| - 1] == '=' && WriterAttr(sel) in writers
  }

  /** The attribute `n` a writer selector `n=` assigns. */
  function WriterAttr(sel: string): string
    requires |sel| > 0
  {
    sel[..|sel| - 1]
  }

  /** `respond_to?(name)`: a native reader of the class or a reader
      synthesized on this object. */
  predicate RespondsTo(classes: map<string, ClassDef>, o: Obj, name: string) {
    name in ClassOf(classes, o.cls).readers || name in o.singletonReaders
  }

  /** The tracking map a run of sets leaves behind, starting from `t`: still
      `t` when nothing was set, else `t` (or an empty map) updated by the
      pairs in order. */
  function Track(t: Option<map<string, Value>>, pairs: seq<(string, Value)>): Option<map<string, Value>> {
    if |pairs| == 0 then t else Some(t.GetOr(map[]) + AsMap(pairs))
  }

  /** `clay_attributes` with no argument: the tracking map, `None` (nil)
      before any attribute was set. */
  function ClayAttributes(o: Obj): Option<map<string, Value>> {
    o.tracked
  }

  /** `clay_attributes(name, value)`: creates the tracking map if needed and
      records `name -> value` in it; nothing else of the object changes. */
  function RecordClayAttribute(o: Obj, name: string, value: Value): (r: Obj)
    ensures ClayAttributes(r).Some?
    ensures name in ClayAttributes(r).value && ClayAttributes(r).value[name] == value
    ensures forall k :: k != name ==>
              (k in ClayAttributes(r).value <==> k in o.tracked.GetOr(map[]))
    ensures forall k :: k != name && k in o.tracked.GetOr(map[]) ==>
              ClayAttributes(r).value[k] == o.tracked.GetOr(map[])[k]
    ensures r.cls == o.cls && r.fields == o.fields && r.singletonReaders == o.singletonReaders
  {
    o.(tracked := Some(o.tracked.GetOr(map[])[name := value]))
  }

  /** What reading the attribute returns: the instance variable through a
      reader when the object answers `name` (nil if the variable was never
      assigned), and nil from `method_missing` otherwise. */
  function ReadAttribute(classes: map<string, ClassDef>, o: Obj, name: string): (v: Value)
    ensures name !in o.fields ==> v == Nil
    ensures !RespondsTo(classes, o, name) ==> v == Nil
    ensures RespondsTo(classes, o, name) && name in o.fields ==> v == o.fields[name]
  {
    if RespondsTo(classes, o, name) && name in o.fields then o.fields[name] else Nil
  }

  /** `set_clay_attribute(name, value)`. */
  function SetClayAttribute(classes: map<string, ClassDef>, o: Obj, name: string, value: Value): (r: Result<Obj>)
    ensures r.Ok? <==> HasWriter(classes, o, name) || IvarName(name)
    ensures r.Err? ==> r.error == NameError(name)
    ensures r.Ok? ==> r.value.cls == o.cls
    // the instance variable is assigned, whichever path was taken
    ensures r.Ok? ==> r.value.fields == o.fields[name := value]
    // and the pair is tracked, whichever path was taken
    ensures r.Ok? ==> r.value.tracked == Track(o.tracked, [(name, value)])
    // the only method ever synthesized is the reader for `name`
    ensures r.Ok? ==> r.value.singletonReaders == o.singletonReaders + SynthesizedReader(classes, o, name)
    // without a native writer the object answers `name` afterwards
    ensures r.Ok? && !HasWriter(classes, o, name) ==> RespondsTo(classes, r.value, name)
    // and reading the attribute back yields the value, unless only a writer exists
    ensures r.Ok? && (!HasWriter(classes, o, name) || name in ClassOf(classes, o.cls).readers) ==>
              ReadAttribute(classes, r.value, name) == value
  {
    assert AsMap([(name, value)]) == map[name := value];
    assert o.tracked.GetOr(map[])[name := value] == o.tracked.GetOr(map[]) + map[name := value];
    if HasWriter(classes, o, name) then
      // the writer is taken to store `@name`, as `attr_writer` does
      Ok(RecordClayAttribute(o.(fields := o.fields[name := value]), name, value))
    else if !IvarName(name) then
      Err(NameError(name))
    else
      var readers := if RespondsTo(classes, o, name) then o.singletonReaders else o.singletonReaders + {name};
      Ok(RecordClayAttribute(o.(fields := o.fields[name := value], singletonReaders := readers), name, value))
  }

  /** `method_missing(name, *args)`: with a non-blank name and at least one
      argument it sets the attribute to the first argument and returns that
      value; any other missing call returns nil and changes nothing. The
      source's two branches do the same thing and are modelled as one. */
  function MethodMissing(classes: map<string, ClassDef>, o: Obj, name: string, args: seq<Value>): (r: Result<(Obj, Value)>)
    ensures name == "" || |args| == 0 ==> r == Ok((o, Nil))
    ensures name != "" && |args| > 0 ==>
              (r.Ok? <==> SetClayAttribute(classes, o, name, args[0]).Ok?)
    ensures name != "" && |args| > 0 && r.Ok? ==>
              r.value.1 == args[0] && ClayAttributes(r.value.0).Some? &&
              name in ClayAttributes(r.value.0).value && ClayAttributes(r.value.0).value[name] == args[0]
    // the object is left as `set_clay_attribute` leaves it: assigned,
    // tracked, and with the reader synthesized when one is needed
    ensures name != "" && |args| > 0 && r.Ok? ==>
              && r.value.0.fields == o.fields[name := args[0]]
              && r.value.0.tracked == Track(o.tracked, [(name, args[0])])
              && r.value.0.singletonReaders == o.singletonReaders + SynthesizedReader(classes, o, name)
    ensures r.Ok? ==> r.value.0.cls == o.cls
  {
    if name != "" && |args| > 0 then
      match SetClayAttribute(classes, o, name, args[0])
      case Ok(o') => Ok((o', args[0]))
      case Err(e) => Err(e)
    else
      Ok((o, Nil))
  }

  /** A call `o.name(*args)` as Ruby dispatches it: to the class's writer when
      `name` is `n=` for a native writer `n` (which takes exactly one
      argument), to the reader when the object answers `name` (a reader takes
      no argument), else to `method_missing`. */
  function Send(classes: map<string, ClassDef>, o: Obj, name: string, args: seq<Value>): (r: Result<(Obj, Value)>)
    // a native writer assigns its attribute and returns the value; it tracks
    // nothing and synthesizes nothing
    ensures IsWriterSelector(ClassOf(classes, o.cls).writers, name) ==>
              (r.Ok? <==> |args| == 1) && (r.Err? ==> r.error == ArgumentError(name))
    ensures IsWriterSelector(ClassOf(classes, o.cls).writers, name) && r.Ok? ==>
              && r.value.1 == args[0]
              && r.value.0.fields == o.fields[WriterAttr(name) := args[0]]
              && r.value.0.tracked == o.tracked
              && r.value.0.singletonReaders == o.singletonReaders
    ensures !IsWriterSelector(ClassOf(classes, o.cls).writers, name) ==>
              && (RespondsTo(classes, o, name) && |args| > 0 ==> r == Err(ArgumentError(name)))
              && (!RespondsTo(classes, o, name) ==> r == MethodMissing(classes, o, name, args))
              // a call without arguments is a read: it changes nothing
              && (|args| == 0 ==> r == Ok((o, ReadAttribute(classes, o, name))))
    ensures r.Ok? ==> r.value.0.cls == o.cls
  {
    if IsWriterSelector(ClassOf(classes, o.cls).writers, name) then
      if |args| == 1 then Ok((o.(fields := o.fields[WriterAttr(name) := args[0]]), args[0]))
      else Err(ArgumentError(name))
    else if RespondsTo(classes, o, name) then
      if |args| == 0 then Ok((o, if name in o.fields then o.fields[name] else Nil))
      else Err(ArgumentError(name))
    else
      MethodMissing(classes, o, name, args)
  }

  /** A fresh object answers only its class's readers, reads every attribute
      as nil and has no tracking map: `clay_attributes` is nil. */
  lemma FreshObject(classes: map<string, ClassDef>, cls: string, x: string)
    ensures var o := Allocate(cls);
            && ClayAttributes(o) == None
            && (RespondsTo(classes, o, x) <==> x in ClassOf(classes, cls).readers)
            && ReadAttribute(classes, o, x) == Nil
  {
  }

  /** `clay_attributes` with no argument stays nil until the first set and
      is then a map holding every pair set so far, the last value winning;
      asking for it, or a read, creates nothing. */
  lemma AttributesNilUntilSet(classes: map<string, ClassDef>, o: Obj, pairs: seq<(string, Value)>, x: string)
    requires ClayAttributes(o) == None
    ensures var r := OverrideClayAttribute(classes, o, pairs);
            r.Ok? ==> ClayAttributes(r.value) == (if |pairs| == 0 then None else Some(AsMap(pairs)))
    ensures !IsWriterSelector(ClassOf(classes, o.cls).writers, x) ==>
              ClayAttributes(Send(classes, o, x, []).value.0) == None
  {
    assert map[] + AsMap(pairs) == AsMap(pairs);
  }

  /** Every pair of an option list names an attribute `set_clay_attribute`
      accepts on objects of class `cls`. */
  predicate SettableAll(classes: map<string, ClassDef>, cls: string, pairs: seq<(string, Value)>) {
    forall i :: 0 <= i < |pairs| ==> pairs[i].0 in ClassOf(classes, cls).writers || IvarName(pairs[i].0)
  }

  /** `override_clay_attribute(attributes)`: `set_clay_attribute` for each
      pair, in order, stopping at the first error. */
  function OverrideClayAttribute(classes: map<string, ClassDef>, o: Obj, pairs: seq<(string, Value)>): (r: Result<Obj>)
    ensures r.Ok? <==> SettableAll(classes, o.cls, pairs)
    ensures r.Err? ==> exists i :: 0 <= i < |pairs| && r.error == NameError(pairs[i].0)
    ensures r.Ok? ==> r.value.cls == o.cls
    ensures r.Ok? ==> r.value.fields == o.fields + AsMap(pairs)
    ensures r.Ok? ==> r.value.tracked == Track(o.tracked, pairs)
    ensures r.Ok? ==> o.singletonReaders <= r.value.singletonReaders
    decreases |pairs|
  {
    if |pairs| == 0 then Ok(o)
    else
      match SetClayAttribute(classes, o, pairs[0].0, pairs[0].1)
      case Err(e) => Err(e)
      case Ok(o1) =>
        var r := OverrideClayAttribute(classes, o1, pairs[1..]);
        TrackStep(o.tracked, pairs);
        FieldsStep(o.fields, pairs);
        SettableStep(classes, o.cls, pairs);
        if r.Err? then
          var i :| 0 <= i < |pairs[1..]| && r.error == NameError(pairs[1..][i].0);
          assert r.error == NameError(pairs[i + 1].0);
          r
        else r
  }

  lemma TrackStep(t: Option<map<string, Value>>, pairs: seq<(string, Value)>)
    requires |pairs| > 0
    ensures Track(Track(t, [pairs[0]]), pairs[1..]) == Track(t, pairs)
  {
    var m := t.GetOr(map[]);
    var head := map[pairs[0].0 := pairs[0].1];
    assert AsMap([pairs[0]]) == head;
    assert AsMap(pairs) == head + AsMap(pairs[1..]);
    MapUnionAssoc(m, head, AsMap(pairs[1..]));
  }

  lemma FieldsStep(f: map<string, Value>, pairs: seq<(string, Value)>)
    requires |pairs| > 0
    ensures f[pairs[0].0 := pairs[0].1] + AsMap(pairs[1..]) == f + AsMap(pairs)
  {
  }

  lemma SettableStep(classes: map<string, ClassDef>, cls: string, pairs: seq<(string, Value)>)
    requires |pairs| > 0
    ensures SettableAll(classes, cls, pairs) <==>
              (pairs[0].0 in ClassOf(classes, cls).writers || IvarName(pairs[0].0)) && SettableAll(classes, cls, pairs[1..])
  {
  }

  /** `clay_creation_block(&block)`: with a block it binds and returns it;
      without one it returns the bound block, or raises when none is bound. */
  function ClayCreationBlock(p: Prototype, given: Option<Block>): (r: Result<(Prototype, Block)>)
    ensures r.Err? <==> given.None? && p.creationBlock.None?
    ensures r.Err? ==> r.error == InvalidClayCreationBlock
    // what is returned is what the prototype now holds
    ensures r.Ok? ==> r.value.0.creationBlock == Some(r.value.1) && r.value.0.cls == p.cls
    ensures given.Some? && r.Ok? ==> r.value.1 == given.value
    // asking for the block changes nothing
    ensures given.None? && r.Ok? ==> r.value.0 == p
  {
    if given.Some? then Ok((p.(creationBlock := given), given.value))
    else if p.creationBlock.Some? then Ok((p, p.creationBlock.value))
    else Err(InvalidClayCreationBlock)
  }

  /** Binding then asking returns what was bound: `clay_creation_block(&b)`
      followed by `clay_creation_block` yields `b`, and asking again changes
      nothing. */
  lemma BindThenGet(p: Prototype, b: Block)
    ensures var bound := ClayCreationBlock(p, Some(b));
            && bound.Ok?
            && ClayCreationBlock(bound.value.0, None) == Ok((bound.value.0, b))
  {
  }

  /** Setting an attribute twice is the same as setting it once to the second
      value: the tracking map and the instance variable keep the last value. */
  lemma SetLastWins(classes: map<string, ClassDef>, o: Obj, name: string, v1: Value, v2: Value)
    requires SetClayAttribute(classes, o, name, v1).Ok?
    ensures SetClayAttribute(classes, SetClayAttribute(classes, o, name, v1).value, name, v2)
            == SetClayAttribute(classes, o, name, v2)
  {
    var t := o.tracked.GetOr(map[]);
    assert t[name := v1][name := v2] == t[name := v2];
    assert o.fields[name := v1][name := v2] == o.fields[name := v2];
  }

  /** Sets of two different attributes commute, so the order in which the
      override hash is walked does not matter for its distinct keys. */
  lemma SetCommutes(classes: map<string, ClassDef>, o: Obj, a: string, x: Value, b: string, y: Value)
    requires a != b
    requires SetClayAttribute(classes, o, a, x).Ok? && SetClayAttribute(classes, o, b, y).Ok?
    ensures SetClayAttribute(classes, SetClayAttribute(classes, o, a, x).value, b, y)
            == SetClayAttribute(classes, SetClayAttribute(classes, o, b, y).value, a, x)
  {
    SetTwice(classes, o, a, x, b, y);
    SetTwice(classes, o, b, y, a, x);
    BothSetSymmetric(classes, o, a, x, b, y);
  }

  /** The object after setting `a := x` and then a different `b := y`. */
  function BothSet(classes: map<string, ClassDef>, o: Obj, a: string, x: Value, b: string, y: Value): Obj {
    o.(fields := o.fields[a := x][b := y],
       singletonReaders := o.singletonReaders + SynthesizedReader(classes, o, a) + SynthesizedReader(classes, o, b),
       tracked := Some(o.tracked.GetOr(map[])[a := x][b := y]))
  }

  lemma BothSetSymmetric(classes: map<string, ClassDef>, o: Obj, a: string, x: Value, b: string, y: Value)
    requires a != b
    ensures BothSet(classes, o, a, x, b, y) == BothSet(classes, o, b, y, a, x)
  {
    var t := o.tracked.GetOr(map[]);
    assert t[b := y][a := x] == t[a := x][b := y];
    assert o.fields[b := y][a := x] == o.fields[a := x][b := y];
    var sa, sb := SynthesizedReader(classes, o, a), SynthesizedReader(classes, o, b);
    assert o.singletonReaders + sb + sa == o.singletonReaders + sa + sb;
  }

  /** Setting `a` then a different `b`, in one formula. */
  lemma SetTwice(classes: map<string, ClassDef>, o: Obj, a: string, x: Value, b: string, y: Value)
    requires a != b
    requires SetClayAttribute(classes, o, a, x).Ok? && SetClayAttribute(classes, o, b, y).Ok?
    ensures SetClayAttribute(classes, SetClayAttribute(classes, o, a, x).value, b, y)
            == Ok(BothSet(classes, o, a, x, b, y))
  {
    var oa := SetClayAttribute(classes, o, a, x).value;
    SetShape(classes, o, a, x);
    SetShape(classes, oa, b, y);
    assert SynthesizedReader(classes, oa, b) == SynthesizedReader(classes, o, b);
  }

  /** The object a successful set produces, in one formula. */
  lemma SetShape(classes: map<string, ClassDef>, o: Obj, n: string, v: Value)
    ensures var r := SetClayAttribute(classes, o, n, v);
            r.Ok? ==> r.value == o.(fields := o.fields[n := v],
                                    singletonReaders := o.singletonReaders + SynthesizedReader(classes, o, n),
                                    tracked := Some(o.tracked.GetOr(map[])[n := v]))
  {
  }

  /** The reader a set synthesizes: none when the class has a writer or the
      object already answers `n`. */
  function SynthesizedReader(classes: map<string, ClassDef>, o: Obj, n: string): set<string> {
    if HasWriter(classes, o, n) || RespondsTo(classes, o, n) then {} else {n}
  }
}

=== FILE: factory.dfy ===
/** The instance factory `ClayBlueprint.Clay(name, options)`.

    It strips `:class` from the options, looks the blueprint up, allocates a
    fresh object of the prototype's class, replays the creation block on it
    (`copy_clay_attributes`) and then applies the remaining options as
    overrides (`override_clay_attribute`).

    A block step's arguments are evaluated before the call is dispatched, and
    an argument may itself be `Clay(other)`: block replay and instantiation
    are mutually recursive. The source has no guard against a blueprint that
    reaches itself; here every nested instantiation consumes one unit of
    `fuel`, and running out raises `StackLevelTooDeep`, standing in for the
    interpreter's stack exhaustion.
 */
module ClayFactory {
  import opened ClayTypes
  import opened ExtendClayClass
  import opened ClayRegistry

  /** `w2` is `w` after allocating zero or more objects: registry and classes
      are the same and every object of `w` except `keep` is untouched. */
  predicate ExtendsExcept(w: World, w2: World, keep: int) {
    && w2.registry == w.registry
    && w2.classes == w.classes
    && |w.heap| <= |w2.heap|
    && forall i :: 0 <= i < |w.heap| && i != keep ==> w2.heap[i] == w.heap[i]
  }

  /** `w2` is `w` after allocating zero or more objects, none of `w`'s changed. */
  predicate Extends(w: World, w2: World) {
    ExtendsExcept(w, w2, -1)
  }

  /** `options.delete(:class)`: every pair keyed `class` is dropped. */
  function WithoutClass(options: seq<(string, Value)>): (r: seq<(string, Value)>)
    ensures forall i :: 0 <= i < |r| ==> r[i].0 != "class"
    ensures forall i :: 0 <= i < |options| && options[i].0 != "class" ==> options[i] in r
    ensures forall p :: p in r ==> p in options
  {
    if |options| == 0 then []
    else if options[0].0 == "class" then WithoutClass(options[1..])
    else [options[0]] + WithoutClass(options[1..])
  }

  /** `ClayBlueprint.Clay(name, options)`: the id of a new, populated object. */
  function Instantiate(w: World, name: string, options: seq<(string, Value)>, fuel: nat): (r: Outcome<ObjId>)
    ensures Extends(w, r.world)
    // an unregistered name raises before anything happens
    ensures name !in w.registry ==> r == Outcome(w, Err(InvalidClay(name)))
    // the result is an object that did not exist before, of the prototype's class
    ensures r.result.Ok? ==>
              && name in w.registry
              && r.result.value == |w.heap| < |r.world.heap|
              && r.world.heap[r.result.value].cls == w.registry[name].cls
    // prototypes stored by `define` always have a block to replay
    ensures RegistryBound(w.registry) ==> r.result != Err(InvalidClayCreationBlock)
    decreases fuel, 4, 0
  {
    var overrides := WithoutClass(options);
    if name !in w.registry then Outcome(w, Err(InvalidClay(name)))
    else
      var proto := w.registry[name];
      var id := |w.heap|;
      var w1 := w.(heap := w.heap + [Allocate(proto.cls)]);
      var c := CopyClayAttributes(w1, id, proto, fuel);
      if c.result.Err? then Outcome(c.world, Err(c.result.error))
      else
        match OverrideClayAttribute(c.world.classes, c.world.heap[id], overrides)
        case Err(e) => Outcome(c.world, Err(e))
        case Ok(o) => Outcome(c.world.(heap := c.world.heap[id := o]), Ok(id))
  }

  /** `copy_clay_attributes(object)`: replays the prototype's creation block
      on object `id`; raises when the prototype has none bound. */
  function CopyClayAttributes(w: World, id: ObjId, proto: Prototype, fuel: nat): (r: Outcome<()>)
    requires id < |w.heap|
    ensures ExtendsExcept(w, r.world, id)
    ensures r.world.heap[id].cls == w.heap[id].cls
    ensures r.result == Err(InvalidClayCreationBlock) ==>
              proto.creationBlock.None? || !RegistryBound(w.registry)
    decreases fuel, 3, 0
  {
    match ClayCreationBlock(proto, None)
    case Err(e) => Outcome(w, Err(e))
    case Ok((_, steps)) => RunBlock(w, id, steps, fuel)
  }

  /** Runs the DSL calls of a block on object `id`, in order, stopping at the
      first error. */
  function RunBlock(w: World, id: ObjId, steps: Block, fuel: nat): (r: Outcome<()>)
    requires id < |w.heap|
    ensures ExtendsExcept(w, r.world, id)
    ensures r.world.heap[id].cls == w.heap[id].cls
    ensures RegistryBound(w.registry) ==> r.result != Err(InvalidClayCreationBlock)
    decreases fuel, 2, |steps|
  {
    if |steps| == 0 then Outcome(w, Ok(()))
    else
      var ev := EvalArgs(w, steps[0].args, fuel);
      if ev.result.Err? then Outcome(ev.world, Err(ev.result.error))
      else
        var sent := SendTo(ev.world, id, steps[0].attr, ev.result.value);
        if sent.result.Err? then Outcome(sent.world, Err(sent.result.error))
        else RunBlock(sent.world, id, steps[1..], fuel)
  }

  /** A DSL call on the live object `id`: the object is updated in place and
      no other object is touched. */
  function SendTo(w: World, id: ObjId, name: string, args: seq<Value>): (r: Outcome<Value>)
    requires id < |w.heap|
    ensures ExtendsExcept(w, r.world, id) && |r.world.heap| == |w.heap|
    ensures r.world.heap[id].cls == w.heap[id].cls
    // a failed call leaves the object as it was
    ensures r.result.Err? ==> r.world == w && Send(w.classes, w.heap[id], name, args) == Err(r.result.error)
    ensures r.result.Ok? ==> Send(w.classes, w.heap[id], name, args) == Ok((r.world.heap[id], r.result.value))
  {
    match Send(w.classes, w.heap[id], name, args)
    case Err(e) => Outcome(w, Err(e))
    case Ok((o, v)) => Outcome(w.(heap := w.heap[id := o]), Ok(v))
  }

  /** Evaluates the arguments of one DSL call, left to right; a nested
      `Clay(...)` instantiates its blueprint and yields a reference to it. */
  function EvalArgs(w: World, args: seq<Arg>, fuel: nat): (r: Outcome<seq<Value>>)
    ensures Extends(w, r.world)
    ensures r.result.Ok? ==> |r.result.value| == |args|
    ensures RegistryBound(w.registry) ==> r.result != Err(InvalidClayCreationBlock)
    decreases fuel, 1, |args|
  {
    if |args| == 0 then Outcome(w, Ok([]))
    else
      var first: Outcome<Value> :=
        match args[0]
        case Lit(v) => Outcome(w, Ok(v))
        case Nested(n, opts) =>
          if fuel == 0 then Outcome(w, Err(StackLevelTooDeep))
          else
            var inner := Instantiate(w, n, opts, fuel - 1);
            Outcome(inner.world, if inner.result.Ok? then Ok(Ref(inner.result.value)) else Err(inner.result.error));
      if first.result.Err? then Outcome(first.world, Err(first.result.error))
      else
        var rest := EvalArgs(first.world, args[1..], fuel);
        if rest.result.Err? then rest
        else Outcome(rest.world, Ok([first.result.value] + rest.result.value))
  }
}

=== FILE: properties.dfy ===
/** What instantiation produces: the tracking map and the instance variables
    of a new instance are the base attributes of its blueprint's block,
    overridden by the caller's options; instances are fresh and independent;
    nested blueprints yield associated instances; and the DSL's dispatch
    rejects a call whose name the object already answers.

    The lemmas about block contents speak of LITERAL blocks, whose DSL calls
    take plain values; nested instantiation is treated on its own.
 */
module ClayProperties {
  import opened ClayTypes
  import opened ExtendClayClass
  import opened ClayRegistry
  import opened ClayFactory

  predicate LiteralArgs(args: seq<Arg>) {
    forall i :: 0 <= i < |args| ==> args[i].Lit?
  }

  predicate LiteralBlock(b: Block) {
    forall i :: 0 <= i < |b| ==> LiteralArgs(b[i].args)
  }

  function ArgValue(a: Arg): Value {
    if a.Lit? then a.v else Nil
  }

  /** The writers of class `cls` in world `w`. */
  function ClassWriters(w: World, cls: string): set<string> {
    ClassOf(w.classes, cls).writers
  }

  /** The base attributes a literal block asserts, for a class whose native
      writers are `ws`: one pair per DSL call with a non-blank name and at
      least one argument, to its first argument, in block order. Calls
      without an argument are reads, and a call `f.n = v` to a native writer
      is not tracked. */
  function Assignments(ws: set<string>, b: Block): seq<(string, Value)> {
    if |b| == 0 then []
    else
      (if |b[0].args| > 0 then CallAssignment(ws, b[0].attr, [ArgValue(b[0].args[0])]) else [])
      + Assignments(ws, b[1..])
  }

  /** The instance variables a literal block assigns: its base attributes,
      together with the attribute of every native writer call, in block
      order. */
  function Writes(ws: set<string>, b: Block): seq<(string, Value)> {
    if |b| == 0 then []
    else
      (if |b[0].args| > 0 then CallWrite(ws, b[0].attr, [ArgValue(b[0].args[0])]) else [])
      + Writes(ws, b[1..])
  }

  /** Tracking maps compose: a run of sets followed by another is one run. */
  lemma TrackAppend(t: Option<map<string, Value>>, a: seq<(string, Value)>, b: seq<(string, Value)>)
    ensures Track(Track(t, a), b) == Track(t, a + b)
  {
    if |a| == 0 {
      assert a + b == b;
    } else if |b| == 0 {
      assert a + b == a;
    } else {
      AsMapAppend(a, b);
      MapUnionAssoc(t.GetOr(map[]), AsMap(a), AsMap(b));
    }
  }

  lemma FieldsAppend(f: map<string, Value>, a: seq<(string, Value)>, b: seq<(string, Value)>)
    ensures (f + AsMap(a)) + AsMap(b) == f + AsMap(a + b)
  {
    AsMapAppend(a, b);
    MapUnionAssoc(f, AsMap(a), AsMap(b));
  }

  /** Literal arguments evaluate to their values without touching the world. */
  lemma {:induction false} EvalLiteralArgs(w: World, args: seq<Arg>, fuel: nat)
    requires LiteralArgs(args)
    ensures EvalArgs(w, args, fuel).world == w
    ensures EvalArgs(w, args, fuel).result.Ok?
    ensures forall i :: 0 <= i < |args| ==> EvalArgs(w, args, fuel).result.value[i] == args[i].v
  {
    if |args| > 0 {
      assert LiteralArgs(args[1..]) by {
        forall i | 0 <= i < |args[1..]| ensures args[1..][i].Lit? {
          assert args[1..][i] == args[i + 1];
        }
      }
      EvalLiteralArgs(w, args[1..], fuel);
      var vs := EvalArgs(w, args, fuel).result.value;
      forall i | 0 <= i < |args| ensures vs[i] == args[i].v {
        if i > 0 {
          assert args[1..][i - 1] == args[i];
        }
      }
    }
  }

  /** The assignment a call with argument values `vs` asserts and tracks:
      none for a read, a blank name or a native writer call. */
  function CallAssignment(ws: set<string>, attr: string, vs: seq<Value>): seq<(string, Value)> {
    if attr != "" && |vs| > 0 && !IsWriterSelector(ws, attr) then [(attr, vs[0])] else []
  }

  /** The instance variable a call with argument values `vs` assigns: the
      writer's attribute for a native writer call, else its assignment. */
  function CallWrite(ws: set<string>, attr: string, vs: seq<Value>): seq<(string, Value)> {
    if |vs| > 0 && IsWriterSelector(ws, attr) then [(WriterAttr(attr), vs[0])]
    else CallAssignment(ws, attr, vs)
  }

  /** A call that goes through changes the object exactly by the instance
      variable it assigns and the pair it tracks, and no other object. */
  lemma SendEffect(w: World, id: ObjId, attr: string, vs: seq<Value>)
    requires id < |w.heap|
    ensures var sent := SendTo(w, id, attr, vs);
            var ws := ClassWriters(w, w.heap[id].cls);
            sent.result.Ok? ==>
              && sent.world.heap == w.heap[id := sent.world.heap[id]]
              && sent.world.heap[id].fields == w.heap[id].fields + AsMap(CallWrite(ws, attr, vs))
              && sent.world.heap[id].tracked == Track(w.heap[id].tracked, CallAssignment(ws, attr, vs))
  {
    var ws := ClassWriters(w, w.heap[id].cls);
    if |vs| > 0 && IsWriterSelector(ws, attr) {
      var n := WriterAttr(attr);
      assert AsMap([(n, vs[0])]) == map[n := vs[0]];
      assert w.heap[id].fields[n := vs[0]] == w.heap[id].fields + map[n := vs[0]];
    } else if attr != "" && |vs| > 0 {
      assert AsMap([(attr, vs[0])]) == map[attr := vs[0]];
      assert w.heap[id].fields[attr := vs[0]] == w.heap[id].fields + map[attr := vs[0]];
    }
  }

  /** Replaying a literal block that goes through assigns exactly its
      writes and tracks exactly its base attributes, in order, on the object,
      and allocates nothing. */
  lemma {:induction false} RunLiteralBlock(w: World, id: ObjId, steps: Block, fuel: nat)
    requires id < |w.heap| && LiteralBlock(steps)
    ensures var r := RunBlock(w, id, steps, fuel);
            var ws := ClassWriters(w, w.heap[id].cls);
            r.result.Ok? ==>
              && |r.world.heap| == |w.heap|
              && r.world.heap[id].fields == w.heap[id].fields + AsMap(Writes(ws, steps))
              && r.world.heap[id].tracked == Track(w.heap[id].tracked, Assignments(ws, steps))
    decreases |steps|
  {
    var r := RunBlock(w, id, steps, fuel);
    if |steps| == 0 {
      assert w.heap[id].fields + map[] == w.heap[id].fields;
    } else if r.result.Ok? {
      assert LiteralArgs(steps[0].args);
      EvalLiteralArgs(w, steps[0].args, fuel);
      var ev := EvalArgs(w, steps[0].args, fuel);
      SendEffect(w, id, steps[0].attr, ev.result.value);
      var sent := SendTo(w, id, steps[0].attr, ev.result.value);
      assert LiteralBlock(steps[1..]) by {
        forall i | 0 <= i < |steps[1..]| ensures LiteralArgs(steps[1..][i].args) {
          assert steps[1..][i] == steps[i + 1];
        }
      }
      RunLiteralBlock(sent.world, id, steps[1..], fuel);
      var ws := ClassWriters(w, w.heap[id].cls);
      assert ClassWriters(sent.world, sent.world.heap[id].cls) == ws;
      var vs := ev.result.value;
      var a := CallAssignment(ws, steps[0].attr, vs);
      var f := CallWrite(ws, steps[0].attr, vs);
      assert |steps[0].args| > 0 ==> vs[0] == ArgValue(steps[0].args[0]);
      assert Assignments(ws, steps) == a + Assignments(ws, steps[1..]);
      assert Writes(ws, steps) == f + Writes(ws, steps[1..]);
      FieldsAppend(w.heap[id].fields, f, Writes(ws, steps[1..]));
      TrackAppend(w.heap[id].tracked, a, Assignments(ws, steps[1..]));
    }
  }

  /** A successful instantiation is block replay on a new object followed by
      the overrides. */
  lemma InstantiateShape(w: World, name: string, options: seq<(string, Value)>, fuel: nat)
    ensures var r := Instantiate(w, name, options, fuel);
            r.result.Ok? ==>
              && name in w.registry
              && var id := |w.heap|;
              var c := CopyClayAttributes(w.(heap := w.heap + [Allocate(w.registry[name].cls)]), id, w.registry[name], fuel);
              && c.result.Ok?
              && var ovr := OverrideClayAttribute(c.world.classes, c.world.heap[id], WithoutClass(options));
              && ovr.Ok?
              && r.result.value == id
              && |r.world.heap| == |c.world.heap|
              && r.world.heap[id] == ovr.value
              && r.world.classes == c.world.classes == w.classes
  {
  }

  /** Replaying a literal block on a freshly allocated object leaves it with
      exactly the block's writes and tracks exactly its base attributes. */
  lemma CopyLiteral(w: World, id: ObjId, proto: Prototype, fuel: nat, b: Block)
    requires id < |w.heap| && w.heap[id] == Allocate(proto.cls)
    requires proto.creationBlock == Some(b) && LiteralBlock(b)
    ensures var c := CopyClayAttributes(w, id, proto, fuel);
            var ws := ClassWriters(w, proto.cls);
            c.result.Ok? ==>
              && |c.world.heap| == |w.heap|
              && c.world.heap[id].fields == AsMap(Writes(ws, b))
              && c.world.heap[id].tracked == Track(None, Assignments(ws, b))
  {
    var ws := ClassWriters(w, proto.cls);
    assert ClayCreationBlock(proto, None) == Ok((proto, b));
    assert CopyClayAttributes(w, id, proto, fuel) == RunBlock(w, id, b, fuel);
    RunLiteralBlock(w, id, b, fuel);
    assert w.heap[id].fields == map[] && w.heap[id].tracked == None;
    assert map[] + AsMap(Writes(ws, b)) == AsMap(Writes(ws, b));
  }

  /** Instantiating a blueprint whose block is literal yields one new object
      whose instance variables are the block's writes, and whose tracking map
      is the block's base attributes, each updated by the options other than
      `class`: the tracking map is `None` only when nothing at all was set. */
  lemma InstantiateLiteral(w: World, name: string, options: seq<(string, Value)>, fuel: nat, b: Block)
    requires name in w.registry && w.registry[name].creationBlock == Some(b) && LiteralBlock(b)
    ensures var r := Instantiate(w, name, options, fuel);
            var ws := ClassWriters(w, w.registry[name].cls);
            var tracked := Assignments(ws, b) + WithoutClass(options);
            r.result.Ok? ==>
              && |r.world.heap| == |w.heap| + 1
              && r.world.heap[r.result.value].fields == AsMap(Writes(ws, b) + WithoutClass(options))
              && ClayAttributes(r.world.heap[r.result.value]) == Track(None, tracked)
  {
    var r := Instantiate(w, name, options, fuel);
    if r.result.Ok? {
      InstantiateShape(w, name, options, fuel);
      var proto := w.registry[name];
      var ws := ClassWriters(w, proto.cls);
      var id := |w.heap|;
      var w1 := w.(heap := w.heap + [Allocate(proto.cls)]);
      CopyLiteral(w1, id, proto, fuel, b);
      AsMapAppend(Writes(ws, b), WithoutClass(options));
      TrackAppend(None, Assignments(ws, b), WithoutClass(options));
    }
  }

  /** `options.delete(:class)` as a map: the options minus the key `class`. */
  lemma {:induction false} WithoutClassAsMap(options: seq<(string, Value)>)
    ensures AsMap(WithoutClass(options)) == AsMap(options) - {"class"}
  {
    if |options| > 0 {
      var rest := options[1..];
      WithoutClassAsMap(rest);
      assert AsMap(options) == map[options[0].0 := options[0].1] + AsMap(rest);
      if options[0].0 != "class" {
        assert WithoutClass(options) == [options[0]] + WithoutClass(rest);
        assert AsMap([options[0]] + WithoutClass(rest)) == map[options[0].0 := options[0].1] + AsMap(WithoutClass(rest));
        RemoveBelowHead(options[0].0, options[0].1, AsMap(rest), "class");
      } else {
        RemoveHead(options[0].1, AsMap(rest), "class");
      }
    }
  }

  lemma RemoveBelowHead(k: string, v: Value, m: map<string, Value>, x: string)
    requires k != x
    ensures (map[k := v] + m) - {x} == map[k := v] + (m - {x})
  {
  }

  lemma RemoveHead(v: Value, m: map<string, Value>, x: string)
    ensures (map[x := v] + m) - {x} == m - {x}
  {
  }

  /** Override precedence. For every attribute `k` of an instance of a
      literal blueprint: an option other than `class` wins (its last
      occurrence); else the block's last assignment stands, in the tracking
      map for a DSL call and in the instance variable for any call; else `k`
      is not tracked, or reads as nil when the block never wrote it. */
  lemma OverridePrecedence(w: World, name: string, options: seq<(string, Value)>, fuel: nat, b: Block, k: string)
    requires name in w.registry && w.registry[name].creationBlock == Some(b) && LiteralBlock(b)
    ensures var r := Instantiate(w, name, options, fuel);
            r.result.Ok? ==>
              var o := r.world.heap[r.result.value];
              var ws := ClassWriters(w, w.registry[name].cls);
              var ov := AsMap(options) - {"class"};
              var base := AsMap(Assignments(ws, b));
              var written := AsMap(Writes(ws, b));
              && (k in ov ==>
                    && ClayAttributes(o).Some? && k in ClayAttributes(o).value && ClayAttributes(o).value[k] == ov[k]
                    && k in o.fields && o.fields[k] == ov[k])
              && (k !in ov && k in base ==>
                    ClayAttributes(o).Some? && k in ClayAttributes(o).value && ClayAttributes(o).value[k] == base[k])
              && (k !in ov && k in written ==> k in o.fields && o.fields[k] == written[k])
              && (k !in ov && k !in base ==> ClayAttributes(o).None? || k !in ClayAttributes(o).value)
              && (k !in ov && k !in written ==> ReadAttribute(r.world.classes, o, k) == Nil)
  {
    var r := Instantiate(w, name, options, fuel);
    if r.result.Ok? {
      var ws := ClassWriters(w, w.registry[name].cls);
      InstantiateLiteral(w, name, options, fuel, b);
      WithoutClassAsMap(options);
      AsMapAppend(Assignments(ws, b), WithoutClass(options));
      AsMapAppend(Writes(ws, b), WithoutClass(options));
    }
  }

  /** Every call makes a new object: two instantiations in a row return
      different objects, the second leaves the first's object as it was, and
      a later DSL call on one instance leaves the other unchanged. */
  lemma InstancesAreIndependent(w: World, n1: string, o1: seq<(string, Value)>, f1: nat,
                                n2: string, o2: seq<(string, Value)>, f2: nat,
                                attr: string, args: seq<Value>)
    ensures var r1 := Instantiate(w, n1, o1, f1);
            var r2 := Instantiate(r1.world, n2, o2, f2);
            r1.result.Ok? && r2.result.Ok? ==>
            var id1 := r1.result.value;
            var id2 := r2.result.value;
            && id1 != id2
            && r2.world.heap[id1] == r1.world.heap[id1]
            && SendTo(r2.world, id2, attr, args).world.heap[id1] == r2.world.heap[id1]
  {
  }

  /** Object `id` holds, and tracks, a reference to another live object `j`
      under `attr`. */
  predicate Associates(w: World, id: ObjId, attr: string, j: ObjId) {
    && id < |w.heap| && j < |w.heap| && j != id
    && var o := w.heap[id];
    && attr in o.fields && o.fields[attr] == Ref(j)
    && ClayAttributes(o).Some? && attr in ClayAttributes(o).value && ClayAttributes(o).value[attr] == Ref(j)
  }

  /** A DSL call whose argument is a nested `Clay(n, ov)` associates a fresh,
      fully populated instance of `n`: the attribute holds a reference to the
      first object allocated by the call, of `n`'s class, carrying `n`'s base
      attributes updated by `ov`. */
  lemma NestedAssociation(w: World, id: ObjId, attr: string, n: string, ov: seq<(string, Value)>,
                          fuel: nat, bn: Block)
    requires id < |w.heap| && fuel > 0 && attr != ""
    requires !IsWriterSelector(ClassWriters(w, w.heap[id].cls), attr)
    requires n in w.registry && w.registry[n].creationBlock == Some(bn) && LiteralBlock(bn)
    ensures var r := RunBlock(w, id, [Step(attr, [Nested(n, ov)])], fuel);
            var j := |w.heap|;
            r.result.Ok? ==>
              && Associates(r.world, id, attr, j)
              && r.world.heap[j].cls == w.registry[n].cls
              && ClayAttributes(r.world.heap[j]) ==
                   Track(None, Assignments(ClassWriters(w, w.registry[n].cls), bn) + WithoutClass(ov))
  {
    NestedStep(w, id, attr, n, ov, fuel);
    var r := RunBlock(w, id, [Step(attr, [Nested(n, ov)])], fuel);
    if r.result.Ok? {
      NestedTarget(w, n, ov, fuel - 1, bn);
      var inner := Instantiate(w, n, ov, fuel - 1);
      var j := inner.result.value;
      assert j == |w.heap| && inner.world.heap[id] == w.heap[id] && inner.world.classes == w.classes;
      AssociateWith(inner.world, id, attr, j);
      var sent := SendTo(inner.world, id, attr, [Ref(j)]);
      assert r.world == sent.world && sent.world.heap[j] == inner.world.heap[j];
    }
  }

  /** The object a literal nested blueprint yields, as the association sees it. */
  lemma NestedTarget(w: World, n: string, ov: seq<(string, Value)>, fuel: nat, bn: Block)
    requires n in w.registry && w.registry[n].creationBlock == Some(bn) && LiteralBlock(bn)
    ensures var inner := Instantiate(w, n, ov, fuel);
            var j := |w.heap|;
            inner.result.Ok? ==>
              && inner.result.value == j < |inner.world.heap|
              && inner.world.heap[j].cls == w.registry[n].cls
              && ClayAttributes(inner.world.heap[j]) ==
                   Track(None, Assignments(ClassWriters(w, w.registry[n].cls), bn) + WithoutClass(ov))
  {
    InstantiateLiteral(w, n, ov, fuel, bn);
  }

  /** A one-call block with a nested argument that goes through is the
      nested instantiation followed by the call with its reference. */
  lemma NestedStep(w: World, id: ObjId, attr: string, n: string, ov: seq<(string, Value)>, fuel: nat)
    requires id < |w.heap| && fuel > 0
    ensures var r := RunBlock(w, id, [Step(attr, [Nested(n, ov)])], fuel);
            var inner := Instantiate(w, n, ov, fuel - 1);
            r.result.Ok? ==>
              && inner.result.Ok?
              && var sent := SendTo(inner.world, id, attr, [Ref(inner.result.value)]);
              && sent.result.Ok?
              && r.world == sent.world
  {
    RunOneStep(w, id, Step(attr, [Nested(n, ov)]), fuel);
    EvalNested(w, n, ov, fuel);
  }

  /** Storing a reference to another live object `j` through a DSL call
      leaves `j` as it was. */
  lemma AssociateWith(w: World, id: ObjId, attr: string, j: ObjId)
    requires id < |w.heap| && j < |w.heap| && j != id && attr != ""
    requires !IsWriterSelector(ClassWriters(w, w.heap[id].cls), attr)
    ensures var sent := SendTo(w, id, attr, [Ref(j)]);
            sent.result.Ok? ==>
              && Associates(sent.world, id, attr, j)
              && sent.world.heap[j] == w.heap[j]
  {
  }

  /** A one-call block goes through when its arguments evaluate and the call
      is accepted; the object is then as the call left it. */
  lemma RunOneStep(w: World, id: ObjId, s: Step, fuel: nat)
    requires id < |w.heap|
    ensures var r := RunBlock(w, id, [s], fuel);
            var ev := EvalArgs(w, s.args, fuel);
            r.result.Ok? ==>
              && ev.result.Ok?
              && var sent := SendTo(ev.world, id, s.attr, ev.result.value);
              && sent.result.Ok?
              && r.world == sent.world
  {
  }

  /** A nested `Clay(n, ov)` argument evaluates to a reference to the object
      that instantiation returns. */
  lemma EvalNested(w: World, n: string, ov: seq<(string, Value)>, fuel: nat)
    requires fuel > 0
    ensures var ev := EvalArgs(w, [Nested(n, ov)], fuel);
            var inner := Instantiate(w, n, ov, fuel - 1);
            ev.result.Ok? ==>
              && inner.result.Ok?
              && ev.world == inner.world
              && ev.result.value == [Ref(inner.result.value)]
  {
  }

  /** A block that issues the same DSL call twice cannot be replayed on an
      object whose class has no writer for it: the first call synthesizes the
      reader `attr`, so the second is dispatched to that reader, which takes
      no argument. */
  lemma RepeatedDslCallFails(w: World, id: ObjId, attr: string, v1: Value, v2: Value, rest: Block, fuel: nat)
    requires id < |w.heap| && IvarName(attr) && !HasWriter(w.classes, w.heap[id], attr)
    ensures RunBlock(w, id, [Step(attr, [Lit(v1)]), Step(attr, [Lit(v2)])] + rest, fuel).result == Err(ArgumentError(attr))
  {
    IvarNotWriterSelector(ClassWriters(w, w.heap[id].cls), attr);
    var steps := [Step(attr, [Lit(v1)]), Step(attr, [Lit(v2)])] + rest;
    EvalLiteralArgs(w, steps[0].args, fuel);
    var sent := SendTo(w, id, attr, [v1]);
    if sent.result.Ok? {
      assert RespondsTo(w.classes, sent.world.heap[id], attr);
      assert steps[1..][0] == Step(attr, [Lit(v2)]);
      EvalLiteralArgs(sent.world, [Lit(v2)], fuel);
    }
  }

  /** A class that already answers `attr` (say through `attr_accessor`)
      takes the DSL call `f.attr value` itself, and its reader refuses the
      argument. */
  lemma NativeReaderRejectsDslCall(w: World, id: ObjId, attr: string, v: Value, rest: Block, fuel: nat)
    requires id < |w.heap| && IvarName(attr) && attr in ClassOf(w.classes, w.heap[id].cls).readers
    ensures RunBlock(w, id, [Step(attr, [Lit(v)])] + rest, fuel).result == Err(ArgumentError(attr))
  {
    EvalLiteralArgs(w, [Lit(v)], fuel);
    IvarNotWriterSelector(ClassWriters(w, w.heap[id].cls), attr);
  }

  /** A call `f.n = v` on a class with the native writer `n` assigns `@n`
      through the writer: the attribute reads `v` back when the class also
      has the reader, nothing is tracked and no reader is synthesized. */
  lemma NativeWriterCall(w: World, id: ObjId, n: string, v: Value, fuel: nat)
    requires id < |w.heap| && n in ClassOf(w.classes, w.heap[id].cls).writers
    ensures var r := RunBlock(w, id, [Step(n + "=", [Lit(v)])], fuel);
            var o := w.heap[id];
            && r.result.Ok?
            && r.world.heap == w.heap[id := o.(fields := o.fields[n := v])]
            && ClayAttributes(r.world.heap[id]) == ClayAttributes(o)
            && (n in ClassOf(w.classes, o.cls).readers ==> ReadAttribute(w.classes, r.world.heap[id], n) == v)
  {
    EvalLiteralArgs(w, [Lit(v)], fuel);
    assert WriterAttr(n + "=") == n;
  }

  /** A well-formed instance variable name never ends in `=`, so it is never
      a writer selector. */
  lemma IvarNotWriterSelector(ws: set<string>, n: string)
    requires IvarName(n)
    ensures n[|n| - 1] != '=' && !IsWriterSelector(ws, n)
  {
    if |n| > 1 {
      assert IdentChar(n[|n| - 1]);
    }
  }

  /** A forced redefinition takes effect whenever the class name is valid:
      instantiating the name afterwards replays the new block, not the old
      one. */
  lemma ForcedRedefinitionTakesEffect(w: World, name: string, cls: Option<string>, b: Block,
                                      classify: string -> string, options: seq<(string, Value)>, fuel: nat)
    ensures var cn := TargetClassName(name, DefineOptions(cls, true), classify);
            var d := Define(w, name, DefineOptions(cls, true), Some(b), classify);
            var r := Instantiate(d.world, name, options, fuel);
            && (d.result.Ok? <==> ConstName(cn))
            && (d.result.Ok? ==> name in d.world.registry && d.world.registry[name] == Prototype(cn, Some(b)))
            && (d.result.Ok? && r.result.Ok? ==> r.world.heap[r.result.value].cls == cn)
            && (d.result.Ok? && r.result.Ok? && LiteralBlock(b) ==>
                  ClayAttributes(r.world.heap[r.result.value]) ==
                    Track(None, Assignments(ClassWriters(d.world, cn), b) + WithoutClass(options)))
  {
    var d := Define(w, name, DefineOptions(cls, true), Some(b), classify);
    if d.result.Ok? && LiteralBlock(b) {
      InstantiateLiteral(d.world, name, options, fuel, b);
    }
  }

  /** A refused redefinition leaves the old blueprint in force:
      instantiating the name afterwards behaves exactly as before. */
  lemma RefusedRedefinitionKeepsOld(w: World, name: string, cls: Option<string>, b: Option<Block>,
                                    classify: string -> string, options: seq<(string, Value)>, fuel: nat)
    requires name in w.registry
    ensures var d := Define(w, name, DefineOptions(cls, false), b, classify);
            && d.result == Err(DuplicateClayDefinition(name))
            && Instantiate(d.world, name, options, fuel) == Instantiate(w, name, options, fuel)
  {
  }
}

=== FILE: registry.dfy ===
/** The blueprint registry: `Clay.define` and its duplicate-definition guard.

    `define` derives the target class name, refuses a name that is already
    registered unless `:force` is given, refuses a class name that is not a
    constant name, reuses the class of that name or
    creates an empty one, allocates a prototype of that class, binds the
    creation block to it and stores it under the blueprint name. The block is
    not run.
 */
module ClayRegistry {
  import opened ClayTypes
  import opened ExtendClayClass

  /** Every registered prototype has a creation block bound: `define` stores
      a prototype only after binding succeeded. */
  predicate RegistryBound(registry: map<string, Prototype>) {
    forall n :: n in registry ==> registry[n].creationBlock.Some?
  }

  /** `(options[:class] || name).to_s.classify`: the `:class` option when
      given, else the blueprint name, put through the host's class-name
      inflection `classify`. */
  function TargetClassName(name: string, opts: DefineOptions, classify: string -> string): string {
    classify(opts.cls.GetOr(name))
  }

  /** Ruby accepts `cn` as the name of a top-level constant: an upper-case
      ASCII letter followed by identifier characters. For any other name
      (`"Admin::User"`, `"My-fixture"`, the empty name) `const_defined?`
      raises NameError. */
  predicate ConstName(cn: string) {
    |cn| > 0 && 'A' <= cn[0] <= 'Z' && forall i :: 1 <= i < |cn| ==> IdentChar(cn[i])
  }

  /** The class name comes from the `:class` option when one is given, so
      blueprints with the same `:class` get the same class whatever they are
      called; otherwise from the blueprint's own name. */
  lemma ClassNameSource(n1: string, n2: string, o1: DefineOptions, o2: DefineOptions, classify: string -> string)
    ensures o1.cls.Some? && o1.cls == o2.cls ==>
              TargetClassName(n1, o1, classify) == TargetClassName(n2, o2, classify) == classify(o1.cls.value)
    ensures o1.cls.None? ==> TargetClassName(n1, o1, classify) == classify(n1)
  {
  }

  /** `check_duplicate_definition(name, options)`. */
  function CheckDuplicateDefinition(registry: map<string, Prototype>, name: string, opts: DefineOptions): (r: Result<()>)
    ensures r.Err? <==> name in registry && !opts.force
    ensures r.Err? ==> r.error == DuplicateClayDefinition(name)
  {
    if name in registry && !opts.force then Err(DuplicateClayDefinition(name)) else Ok(())
  }

  /** `Object.const_defined?(klass_name)`, then either the existing class or
      `Object.const_set(klass_name, Class.new())`. */
  function ResolveClass(classes: map<string, ClassDef>, cn: string): (r: map<string, ClassDef>)
    ensures cn in r
    // an existing class is reused as it is
    ensures cn in classes ==> r == classes
    // otherwise exactly one class, an empty one, is added
    ensures cn !in classes ==> r.Keys == classes.Keys + {cn} && r[cn] == EmptyClass
    ensures forall c :: c in classes ==> c in r && r[c] == classes[c]
  {
    if cn in classes then classes else classes[cn := EmptyClass]
  }

  /** `Clay.define(name, options, &block)`; `block` is `None` when the call
      passes no block. */
  function Define(w: World, name: string, opts: DefineOptions, block: Option<Block>, classify: string -> string): (r: Outcome<Prototype>)
    // duplicate guard: raised before anything is touched
    ensures name in w.registry && !opts.force ==> r == Outcome(w, Err(DuplicateClayDefinition(name)))
    // an invalid class name raises next, still before anything is touched
    ensures (name !in w.registry || opts.force) && !ConstName(TargetClassName(name, opts, classify)) ==>
              r == Outcome(w, Err(NameError(TargetClassName(name, opts, classify))))
    // success exactly when the name is free (or forced), the class name is
    // valid and a block is given
    ensures r.result.Ok? <==>
              (name !in w.registry || opts.force) && ConstName(TargetClassName(name, opts, classify)) && block.Some?
    ensures r.result.Ok? ==>
              && r.result.value.cls == TargetClassName(name, opts, classify)
              && r.result.value.creationBlock == block
              && name in r.world.registry && r.world.registry[name] == r.result.value
    // a missing block raises before the registry store
    ensures block.None? && (name !in w.registry || opts.force) && ConstName(TargetClassName(name, opts, classify)) ==>
              r.result == Err(InvalidClayCreationBlock) && r.world.registry == w.registry
    // no other registry entry changes, whatever happens
    ensures forall n :: n != name ==> (n in r.world.registry <==> n in w.registry)
    ensures forall n :: n != name && n in w.registry ==> r.world.registry[n] == w.registry[n]
    // once past both checks, the target class is resolved (even if the block is missing)
    ensures (name !in w.registry || opts.force) && ConstName(TargetClassName(name, opts, classify)) ==>
              r.world.classes == ResolveClass(w.classes, TargetClassName(name, opts, classify))
    // the block is not run: no object is allocated or changed
    ensures r.world.heap == w.heap
    // bound prototypes only
    ensures RegistryBound(w.registry) ==> RegistryBound(r.world.registry)
  {
    var cn := TargetClassName(name, opts, classify);
    match CheckDuplicateDefinition(w.registry, name, opts)
    case Err(e) => Outcome(w, Err(e))
    case Ok(_) =>
      if !ConstName(cn) then Outcome(w, Err(NameError(cn)))
      else
        var w1 := w.(classes := ResolveClass(w.classes, cn));
        match ClayCreationBlock(Prototype(cn, None), block)
        case Err(e) => Outcome(w1, Err(e))
        case Ok((proto, _)) => Outcome(w1.(registry := w.registry[name := proto]), Ok(proto))
  }

  /** Blueprints sharing a `:class` option share the class: the second
      definition reuses the class the first one resolved, and leaves the
      first blueprint's prototype, with its own block, in place. */
  lemma SharedClassDefinitions(w: World, n1: string, n2: string, c: string,
                               b1: Block, b2: Block, force2: bool, classify: string -> string)
    requires n1 != n2
    requires Define(w, n1, DefineOptions(Some(c), false), Some(b1), classify).result.Ok?
    ensures var w1 := Define(w, n1, DefineOptions(Some(c), false), Some(b1), classify).world;
            var r2 := Define(w1, n2, DefineOptions(Some(c), force2), Some(b2), classify);
            (n2 !in w.registry || force2) ==>
              && r2.result.Ok?
              && r2.world.classes == w1.classes
              && r2.world.registry[n1].cls == r2.world.registry[n2].cls == classify(c)
              && r2.world.registry[n1].creationBlock == Some(b1)
              && r2.world.registry[n2].creationBlock == Some(b2)
  {
  }
}

=== FILE: replay.dfy ===
/** When replaying a creation block goes through.

    For a block of literal calls the outcome depends only on the object it
    is replayed on and on the calls themselves, not on the nesting bound. A
    call `f.n = v` to a native writer is accepted exactly when it has one
    argument. Any other call without arguments is a read and always goes
    through. Any other call with arguments is accepted when the object does
    not answer its name, and its name is blank, has a native writer, or is a
    fresh instance variable name that no earlier call with arguments
    set (an earlier assignment without a writer synthesized a reader,
    which then takes the call).
 */
module ClayReplay {
  import opened ClayTypes
  import opened ExtendClayClass
  import opened ClayFactory
  import opened ClayProperties

  /** No call before `i` that has arguments names what call `i` names. */
  predicate FreshName(b: Block, i: nat)
    requires i < |b|
  {
    forall k :: 0 <= k < i && |b[k].args| > 0 ==> b[k].attr != b[i].attr
  }

  /** Call `i` of block `b` is accepted on the object the block started
      from. */
  predicate CallAccepted(classes: map<string, ClassDef>, o: Obj, b: Block, i: nat)
    requires i < |b|
  {
    if IsWriterSelector(ClassOf(classes, o.cls).writers, b[i].attr) then |b[i].args| == 1
    else
      || |b[i].args| == 0
      || (&& !RespondsTo(classes, o, b[i].attr)
          && (b[i].attr == "" || HasWriter(classes, o, b[i].attr) || (IvarName(b[i].attr) && FreshName(b, i))))
  }

  /** Every call of `b` is accepted. */
  predicate DslAccepts(classes: map<string, ClassDef>, o: Obj, b: Block) {
    forall i :: 0 <= i < |b| ==> CallAccepted(classes, o, b, i)
  }

  /** Freshness of a later call, seen from the rest of the block: the first
      call only matters when it has arguments. */
  lemma FreshShift(b: Block, i: nat)
    requires i + 1 < |b|
    ensures FreshName(b, i + 1) <==> FreshName(b[1..], i) && (|b[0].args| > 0 ==> b[0].attr != b[i + 1].attr)
  {
    assert b[1..][i] == b[i + 1];
    assert forall k :: 0 <= k < i ==> b[1..][k] == b[k + 1];
    if FreshName(b[1..], i) && (|b[0].args| > 0 ==> b[0].attr != b[i + 1].attr) {
      forall k | 0 <= k < i + 1 && |b[k].args| > 0 ensures b[k].attr != b[i + 1].attr {
        if k > 0 {
          assert b[1..][k - 1] == b[k];
        }
      }
    }
  }

  /** The whole block is accepted exactly when its first call is and each
      later call is accepted as call `i` of the rest on `o'`. */
  lemma AcceptsShift(classes: map<string, ClassDef>, o: Obj, o': Obj, b: Block)
    requires |b| > 0
    requires forall i :: 0 <= i < |b| - 1 ==> (CallAccepted(classes, o', b[1..], i) <==> CallAccepted(classes, o, b, i + 1))
    ensures DslAccepts(classes, o, b) <==> CallAccepted(classes, o, b, 0) && DslAccepts(classes, o', b[1..])
  {
    if CallAccepted(classes, o, b, 0) && DslAccepts(classes, o', b[1..]) {
      forall i | 0 <= i < |b| ensures CallAccepted(classes, o, b, i) {
        if i > 0 {
          assert CallAccepted(classes, o', b[1..], i - 1);
        }
      }
    }
    if DslAccepts(classes, o, b) {
      forall i | 0 <= i < |b[1..]| ensures CallAccepted(classes, o', b[1..], i) {
        assert CallAccepted(classes, o, b, i + 1);
      }
    }
  }

  /** A read as the first call does not affect whether the rest is accepted. */
  lemma AcceptsAfterRead(classes: map<string, ClassDef>, o: Obj, b: Block)
    requires |b| > 0 && |b[0].args| == 0 && !IsWriterSelector(ClassOf(classes, o.cls).writers, b[0].attr)
    ensures DslAccepts(classes, o, b[1..]) <==> DslAccepts(classes, o, b)
  {
    forall i | 0 <= i < |b| - 1
      ensures CallAccepted(classes, o, b[1..], i) <==> CallAccepted(classes, o, b, i + 1)
    {
      assert b[1..][i] == b[i + 1];
      FreshShift(b, i);
    }
    AcceptsShift(classes, o, o, b);
  }

  /** After an accepted native writer call, which leaves what the object
      answers as it was, the rest of the block is accepted exactly when the
      whole block is. */
  lemma AcceptsAfterWrite(classes: map<string, ClassDef>, o: Obj, o': Obj, b: Block)
    requires |b| > 0 && IsWriterSelector(ClassOf(classes, o.cls).writers, b[0].attr) && |b[0].args| == 1
    requires o'.cls == o.cls && o'.singletonReaders == o.singletonReaders
    ensures DslAccepts(classes, o', b[1..]) <==> DslAccepts(classes, o, b)
  {
    forall i | 0 <= i < |b| - 1
      ensures CallAccepted(classes, o', b[1..], i) <==> CallAccepted(classes, o, b, i + 1)
    {
      assert b[1..][i] == b[i + 1];
      FreshShift(b, i);
      if IvarName(b[i + 1].attr) {
        IvarNotWriterSelector(ClassOf(classes, o.cls).writers, b[i + 1].attr);
      }
    }
    AcceptsShift(classes, o, o', b);
  }

  /** After an accepted first call, the rest of the block is accepted on the
      updated object exactly when the whole block is accepted on the
      original one. The updated object answers what the original answered,
      plus the first call's name when a reader was synthesized for it. */
  lemma AcceptsAfterCall(classes: map<string, ClassDef>, o: Obj, o': Obj, b: Block)
    requires |b| > 0 && |b[0].args| > 0 && CallAccepted(classes, o, b, 0)
    requires !IsWriterSelector(ClassOf(classes, o.cls).writers, b[0].attr)
    requires o'.cls == o.cls
    requires forall x :: RespondsTo(classes, o', x) <==>
                           RespondsTo(classes, o, x) || (x == b[0].attr && x != "" && !HasWriter(classes, o, x))
    ensures DslAccepts(classes, o', b[1..]) <==> DslAccepts(classes, o, b)
  {
    forall i | 0 <= i < |b| - 1
      ensures CallAccepted(classes, o', b[1..], i) <==> CallAccepted(classes, o, b, i + 1)
    {
      assert b[1..][i] == b[i + 1];
      FreshShift(b, i);
    }
    AcceptsShift(classes, o, o', b);
  }

  /** What an accepted DSL call with arguments does to what the object
      answers: it synthesizes the reader for a non-blank name without a
      writer, and nothing else. */
  lemma CallResponds(classes: map<string, ClassDef>, o: Obj, a: string, vs: seq<Value>)
    requires |vs| > 0 && !IsWriterSelector(ClassOf(classes, o.cls).writers, a)
    ensures var r := Send(classes, o, a, vs);
            r.Ok? ==>
              && r.value.0.cls == o.cls
              && forall x :: RespondsTo(classes, r.value.0, x) <==>
                               RespondsTo(classes, o, x) || (x == a && x != "" && !HasWriter(classes, o, x))
  {
  }

  /** One accepted or refused call, stated on the object: a call with
      arguments goes through exactly when it is accepted. */
  lemma SendAccepted(classes: map<string, ClassDef>, o: Obj, b: Block, vs: seq<Value>)
    requires |b| > 0 && |b[0].args| > 0 && |vs| == |b[0].args|
    ensures Send(classes, o, b[0].attr, vs).Ok? <==> CallAccepted(classes, o, b, 0)
  {
  }

  /** Replaying a literal block goes through exactly when every call with
      arguments is accepted, whatever the nesting bound. */
  lemma {:induction false} RunLiteralAccepts(w: World, id: ObjId, steps: Block, fuel: nat)
    requires id < |w.heap| && LiteralBlock(steps)
    ensures RunBlock(w, id, steps, fuel).result.Ok? <==> DslAccepts(w.classes, w.heap[id], steps)
    decreases |steps|
  {
    if |steps| > 0 {
      var o := w.heap[id];
      assert LiteralArgs(steps[0].args);
      EvalLiteralArgs(w, steps[0].args, fuel);
      var vs := EvalArgs(w, steps[0].args, fuel).result.value;
      assert |vs| == |steps[0].args|;
      var sent := SendTo(w, id, steps[0].attr, vs);
      assert LiteralBlock(steps[1..]) by {
        forall i | 0 <= i < |steps[1..]| ensures LiteralArgs(steps[1..][i].args) {
          assert steps[1..][i] == steps[i + 1];
        }
      }
      if IsWriterSelector(ClassOf(w.classes, o.cls).writers, steps[0].attr) {
        if sent.result.Ok? {
          RunLiteralAccepts(sent.world, id, steps[1..], fuel);
          AcceptsAfterWrite(w.classes, o, sent.world.heap[id], steps);
        } else {
          assert !CallAccepted(w.classes, o, steps, 0);
        }
      } else if |steps[0].args| == 0 {
        assert sent.world == w;
        RunLiteralAccepts(w, id, steps[1..], fuel);
        AcceptsAfterRead(w.classes, o, steps);
      } else {
        SendAccepted(w.classes, o, steps, vs);
        if sent.result.Ok? {
          RunLiteralAccepts(sent.world, id, steps[1..], fuel);
          CallResponds(w.classes, o, steps[0].attr, vs);
          AcceptsAfterCall(w.classes, o, sent.world.heap[id], steps);
        }
      }
    }
  }

  /** Instantiating a literal blueprint succeeds exactly when its block is
      accepted on a fresh object of its class and every option other than
      `class` is settable on that class; the nesting bound plays no part. */
  lemma InstantiateSucceeds(w: World, name: string, options: seq<(string, Value)>, fuel: nat, b: Block)
    requires name in w.registry && w.registry[name].creationBlock == Some(b) && LiteralBlock(b)
    ensures var cls := w.registry[name].cls;
            Instantiate(w, name, options, fuel).result.Ok? <==>
              DslAccepts(w.classes, Allocate(cls), b) && SettableAll(w.classes, cls, WithoutClass(options))
  {
    var proto := w.registry[name];
    var id := |w.heap|;
    var w1 := w.(heap := w.heap + [Allocate(proto.cls)]);
    assert ClayCreationBlock(proto, None) == Ok((proto, b));
    assert CopyClayAttributes(w1, id, proto, fuel) == RunBlock(w1, id, b, fuel);
    RunLiteralAccepts(w1, id, b, fuel);
  }

  /** Every name `o` answers, `o'` answers too. */
  ghost predicate KeepsReaders(classes: map<string, ClassDef>, o: Obj, o': Obj) {
    forall x :: RespondsTo(classes, o, x) ==> RespondsTo(classes, o', x)
  }

  /** Overrides never take a reader away, and leave the object answering
      every key that has no native writer. */
  lemma {:induction false} OverrideResponds(classes: map<string, ClassDef>, o: Obj, pairs: seq<(string, Value)>)
    ensures var r := OverrideClayAttribute(classes, o, pairs);
            r.Ok? ==>
              && KeepsReaders(classes, o, r.value)
              && (forall i :: 0 <= i < |pairs| && !HasWriter(classes, o, pairs[i].0) ==>
                                RespondsTo(classes, r.value, pairs[i].0))
    decreases |pairs|
  {
    var r := OverrideClayAttribute(classes, o, pairs);
    if |pairs| > 0 && r.Ok? {
      var o1 := SetClayAttribute(classes, o, pairs[0].0, pairs[0].1).value;
      OverrideResponds(classes, o1, pairs[1..]);
      forall i | 0 <= i < |pairs| && !HasWriter(classes, o, pairs[i].0)
        ensures RespondsTo(classes, r.value, pairs[i].0)
      {
        if i > 0 {
          assert pairs[i] == pairs[1..][i - 1];
        }
      }
    }
  }

  /** A literal block that goes through never takes a reader away, and
      leaves the object answering every instance variable name it sets
      through a DSL call without a native writer. */
  lemma {:induction false} RunLiteralResponds(w: World, id: ObjId, steps: Block, fuel: nat)
    requires id < |w.heap| && LiteralBlock(steps)
    ensures var r := RunBlock(w, id, steps, fuel);
            var o := w.heap[id];
            r.result.Ok? ==>
              && KeepsReaders(w.classes, o, r.world.heap[id])
              && (forall i :: 0 <= i < |steps| && |steps[i].args| > 0 && IvarName(steps[i].attr)
                                && !HasWriter(w.classes, o, steps[i].attr) ==>
                                RespondsTo(w.classes, r.world.heap[id], steps[i].attr))
    decreases |steps|
  {
    var r := RunBlock(w, id, steps, fuel);
    if |steps| > 0 && r.result.Ok? {
      var o := w.heap[id];
      assert LiteralArgs(steps[0].args);
      EvalLiteralArgs(w, steps[0].args, fuel);
      var vs := EvalArgs(w, steps[0].args, fuel).result.value;
      var sent := SendTo(w, id, steps[0].attr, vs);
      assert LiteralBlock(steps[1..]) by {
        forall i | 0 <= i < |steps[1..]| ensures LiteralArgs(steps[1..][i].args) {
          assert steps[1..][i] == steps[i + 1];
        }
      }
      RunLiteralResponds(sent.world, id, steps[1..], fuel);
      var o1 := sent.world.heap[id];
      if IsWriterSelector(ClassOf(w.classes, o.cls).writers, steps[0].attr) {
        assert o1.singletonReaders == o.singletonReaders;
      } else if |vs| > 0 {
        CallResponds(w.classes, o, steps[0].attr, vs);
      } else {
        assert o1 == o;
      }
      forall i | 0 <= i < |steps| && |steps[i].args| > 0 && IvarName(steps[i].attr) && !HasWriter(w.classes, o, steps[i].attr)
        ensures RespondsTo(w.classes, r.world.heap[id], steps[i].attr)
      {
        if i > 0 {
          assert steps[i] == steps[1..][i - 1];
        }
      }
    }
  }

  /** Every instance variable a block writes either has a native writer or
      comes from a DSL call of the block that has an argument and a
      non-blank name. */
  lemma {:induction false} WriteSource(ws: set<string>, b: Block, j: nat)
    requires j < |Writes(ws, b)|
    ensures || Writes(ws, b)[j].0 in ws
            || exists i :: && 0 <= i < |b| && |b[i].args| > 0 && b[i].attr != ""
                           && !IsWriterSelector(ws, b[i].attr) && b[i].attr == Writes(ws, b)[j].0
  {
    var head := if |b[0].args| > 0 then CallWrite(ws, b[0].attr, [ArgValue(b[0].args[0])]) else [];
    assert Writes(ws, b) == head + Writes(ws, b[1..]);
    if j >= |head| {
      WriteSource(ws, b[1..], j - |head|);
      if Writes(ws, b)[j].0 !in ws {
        var i :| && 0 <= i < |b[1..]| && |b[1..][i].args| > 0 && b[1..][i].attr != ""
                 && !IsWriterSelector(ws, b[1..][i].attr) && b[1..][i].attr == Writes(ws, b[1..])[j - |head|].0;
        assert b[1..][i] == b[i + 1];
      }
    }
  }

  /** Reading back: on a new instance of a literal blueprint, every
      attribute that was set and has no native writer reads as its final
      value, through the reader the set synthesized or the class provides. */
  lemma ReadBack(w: World, name: string, options: seq<(string, Value)>, fuel: nat, b: Block, k: string)
    requires name in w.registry && w.registry[name].creationBlock == Some(b) && LiteralBlock(b)
    ensures var r := Instantiate(w, name, options, fuel);
            var all := Writes(ClassWriters(w, w.registry[name].cls), b) + WithoutClass(options);
            r.result.Ok? && k in AsMap(all) && !HasWriter(r.world.classes, r.world.heap[r.result.value], k) ==>
              ReadAttribute(r.world.classes, r.world.heap[r.result.value], k) == AsMap(all)[k]
  {
    var r := Instantiate(w, name, options, fuel);
    var all := Writes(ClassWriters(w, w.registry[name].cls), b) + WithoutClass(options);
    InstantiateLiteral(w, name, options, fuel, b);
    if r.result.Ok? && k in AsMap(all) && !HasWriter(r.world.classes, r.world.heap[r.result.value], k) {
      WrittenResponds(w, name, options, fuel, b, k);
      assert r.world.heap[r.result.value].fields == AsMap(all);
    }
  }

  /** Every attribute written on a new instance, by its block or by an
      option, and without a native writer, is answered by the instance. */
  lemma WrittenResponds(w: World, name: string, options: seq<(string, Value)>, fuel: nat, b: Block, k: string)
    requires name in w.registry && w.registry[name].creationBlock == Some(b) && LiteralBlock(b)
    ensures var r := Instantiate(w, name, options, fuel);
            var all := Writes(ClassWriters(w, w.registry[name].cls), b) + WithoutClass(options);
            r.result.Ok? && k in AsMap(all) && !HasWriter(r.world.classes, r.world.heap[r.result.value], k) ==>
              RespondsTo(r.world.classes, r.world.heap[r.result.value], k)
  {
    var r := Instantiate(w, name, options, fuel);
    var ws := ClassWriters(w, w.registry[name].cls);
    var all := Writes(ws, b) + WithoutClass(options);
    if r.result.Ok? && k in AsMap(all) && !HasWriter(r.world.classes, r.world.heap[r.result.value], k) {
      AsMapKeys(all, k);
      var idx :| 0 <= idx < |all| && all[idx].0 == k;
      if idx < |Writes(ws, b)| {
        WriteSource(ws, b, idx);
        var i :| 0 <= i < |b| && |b[i].args| > 0 && b[i].attr != "" && !IsWriterSelector(ws, b[i].attr) && b[i].attr == k;
        BaseAttributeResponds(w, name, options, fuel, b, i);
      } else {
        assert WithoutClass(options)[idx - |Writes(ws, b)|].0 == k;
        OptionResponds(w, name, options, fuel, idx - |Writes(ws, b)|);
      }
    }
  }

  /** A base attribute set by DSL call `i` of the block, without a
      native writer, is answered by the new instance. */
  lemma BaseAttributeResponds(w: World, name: string, options: seq<(string, Value)>, fuel: nat, b: Block, i: nat)
    requires name in w.registry && w.registry[name].creationBlock == Some(b) && LiteralBlock(b)
    requires i < |b| && |b[i].args| > 0 && b[i].attr != ""
    requires !IsWriterSelector(ClassWriters(w, w.registry[name].cls), b[i].attr)
    ensures var r := Instantiate(w, name, options, fuel);
            r.result.Ok? && !HasWriter(r.world.classes, r.world.heap[r.result.value], b[i].attr) ==>
              RespondsTo(r.world.classes, r.world.heap[r.result.value], b[i].attr)
  {
    var r := Instantiate(w, name, options, fuel);
    if r.result.Ok? {
      InstantiateShape(w, name, options, fuel);
      var id := |w.heap|;
      var w1 := w.(heap := w.heap + [Allocate(w.registry[name].cls)]);
      var c := RunBlock(w1, id, b, fuel);
      assert CopyClayAttributes(w1, id, w.registry[name], fuel) == c;
      RunLiteralAccepts(w1, id, b, fuel);
      assert CallAccepted(w.classes, Allocate(w.registry[name].cls), b, i);
      RunLiteralResponds(w1, id, b, fuel);
      OverrideResponds(c.world.classes, c.world.heap[id], WithoutClass(options));
    }
  }

  /** An option key `j`, without a native writer, is answered by the new
      instance. */
  lemma OptionResponds(w: World, name: string, options: seq<(string, Value)>, fuel: nat, j: nat)
    requires name in w.registry && w.registry[name].creationBlock.Some?
    requires j < |WithoutClass(options)|
    ensures var r := Instantiate(w, name, options, fuel);
            var k := WithoutClass(options)[j].0;
            r.result.Ok? && !HasWriter(r.world.classes, r.world.heap[r.result.value], k) ==>
              RespondsTo(r.world.classes, r.world.heap[r.result.value], k)
  {
    var r := Instantiate(w, name, options, fuel);
    if r.result.Ok? {
      var b := w.registry[name].creationBlock.value;
      InstantiateShape(w, name, options, fuel);
      var id := |w.heap|;
      var w1 := w.(heap := w.heap + [Allocate(w.registry[name].cls)]);
      var c := RunBlock(w1, id, b, fuel);
      assert CopyClayAttributes(w1, id, w.registry[name], fuel) == c;
      OverrideResponds(c.world.classes, c.world.heap[id], WithoutClass(options));
    }
  }

  /** A literal blueprint of a class without accessors, whose block is
      accepted and whose options are settable: instantiation goes through,
      the tracking map holds exactly the attributes set (nil when none was),
      every one of them reads back its final value, and every other
      attribute reads as nil. */
  lemma PlainInstance(w: World, name: string, options: seq<(string, Value)>, fuel: nat, b: Block)
    requires name in w.registry && w.registry[name].creationBlock == Some(b) && LiteralBlock(b)
    requires ClassOf(w.classes, w.registry[name].cls) == EmptyClass
    requires DslAccepts(w.classes, Allocate(w.registry[name].cls), b)
    requires SettableAll(w.classes, w.registry[name].cls, WithoutClass(options))
    ensures var r := Instantiate(w, name, options, fuel);
            var setPairs := Assignments(EmptyClass.writers, b) + WithoutClass(options);
            var all := AsMap(setPairs);
            && r.result.Ok?
            && var o := r.world.heap[r.result.value];
            && ClayAttributes(o) == (if |setPairs| == 0 then None else Some(all))
            && (forall k :: k in all ==> ReadAttribute(r.world.classes, o, k) == all[k])
            && (forall k :: k !in all ==> ReadAttribute(r.world.classes, o, k) == Nil)
  {
    PlainTracked(w, name, options, fuel, b);
    NoWritersWritesAssigned(b);
    var r := Instantiate(w, name, options, fuel);
    var o := r.world.heap[r.result.value];
    assert ClassWriters(w, w.registry[name].cls) == EmptyClass.writers;
    assert ClassOf(r.world.classes, o.cls) == EmptyClass;
    var all := AsMap(Assignments(EmptyClass.writers, b) + WithoutClass(options));
    forall k | k in all ensures ReadAttribute(r.world.classes, o, k) == all[k] {
      ReadBack(w, name, options, fuel, b, k);
    }
  }

  /** The first half of `PlainInstance`: instantiation goes through, and
      both the instance variables and the tracking map are the attributes
      set. */
  lemma PlainTracked(w: World, name: string, options: seq<(string, Value)>, fuel: nat, b: Block)
    requires name in w.registry && w.registry[name].creationBlock == Some(b) && LiteralBlock(b)
    requires ClassOf(w.classes, w.registry[name].cls) == EmptyClass
    requires DslAccepts(w.classes, Allocate(w.registry[name].cls), b)
    requires SettableAll(w.classes, w.registry[name].cls, WithoutClass(options))
    ensures var r := Instantiate(w, name, options, fuel);
            var setPairs := Assignments(EmptyClass.writers, b) + WithoutClass(options);
            && r.result.Ok?
            && r.world.heap[r.result.value].fields == AsMap(setPairs)
            && ClayAttributes(r.world.heap[r.result.value]) == (if |setPairs| == 0 then None else Some(AsMap(setPairs)))
  {
    InstantiateSucceeds(w, name, options, fuel, b);
    InstantiateLiteral(w, name, options, fuel, b);
    assert ClassWriters(w, w.registry[name].cls) == EmptyClass.writers;
    var r := Instantiate(w, name, options, fuel);
    PlainShape(r.world.heap[r.result.value], b, WithoutClass(options));
  }

  /** An object whose fields and tracking map come from a block on a class
      without writers, followed by options, holds exactly the pairs set. */
  lemma PlainShape(o: Obj, b: Block, opts: seq<(string, Value)>)
    requires o.fields == AsMap(Writes(EmptyClass.writers, b) + opts)
    requires ClayAttributes(o) == Track(None, Assignments(EmptyClass.writers, b) + opts)
    ensures var setPairs := Assignments(EmptyClass.writers, b) + opts;
            && o.fields == AsMap(setPairs)
            && ClayAttributes(o) == (if |setPairs| == 0 then None else Some(AsMap(setPairs)))
  {
    NoWritersWritesAssigned(b);
    var all := AsMap(Assignments(EmptyClass.writers, b) + opts);
    assert map[] + all == all;
  }

  /** For a class without writers, what a block writes is what it tracks. */
  lemma {:induction false} NoWritersWritesAssigned(b: Block)
    ensures Writes(EmptyClass.writers, b) == Assignments(EmptyClass.writers, b)
  {
    if |b| > 0 {
      NoWritersWritesAssigned(b[1..]);
    }
  }
}

=== FILE: scenarios.dfy ===
/** The library's own usage scenarios, stated on the model: a blueprint with
    plain attributes, an association, an override, two blueprints sharing a
    class, and blueprints for a class that already exists. The class-name
    inflection stays a parameter; each scenario asks only for the class name
    it produces for the blueprint at hand, and that this class does not
    exist yet (or, for an existing class, what accessors it has).
 */
module ClayScenarios {
  import opened ClayTypes
  import opened ExtendClayClass
  import opened ClayRegistry
  import opened ClayFactory
  import opened ClayProperties
  import opened ClayReplay

  /** `f.name "Hemant Kumar"; f.age 10` */
  const FooBlock: Block := [Step("name", [Lit(Str("Hemant Kumar"))]), Step("age", [Lit(Int(10))])]

  /** `b.name "Bar"; b.age 12` */
  const BarBlock: Block := [Step("name", [Lit(Str("Bar"))]), Step("age", [Lit(Int(12))])]

  /** `l.name "foo"; l.content "bar"; l.size 10` */
  const LessonBlock: Block :=
    [Step("name", [Lit(Str("foo"))]), Step("content", [Lit(Str("bar"))]), Step("size", [Lit(Int(10))])]

  /** `l.name "lesson1"; l.size 20` */
  const LessonWithoutContentBlock: Block := [Step("name", [Lit(Str("lesson1"))]), Step("size", [Lit(Int(20))])]

  /** `e.name "Editor"` */
  const EmacsBlock: Block := [Step("name", [Lit(Str("Editor"))])]

  /** `e.name = "Editor"` */
  const NameWriterBlock: Block := [Step("name=", [Lit(Str("Editor"))])]

  /** `x.name "x"; x.age 20` */
  const XBlock: Block := [Step("name", [Lit(Str("x"))]), Step("age", [Lit(Int(20))])]

  /** `y.sex 'm'; y.profile ClayBlueprint::Clay(:x)` */
  const YBlock: Block := [Step("sex", [Lit(Str("m"))]), Step("profile", [Nested("x", [])])]

  /** The class names the scenarios use are valid constant names. */
  lemma ScenarioClassNames()
    ensures ConstName("Foo") && ConstName("Bar") && ConstName("Lesson") && ConstName("Emac")
    ensures ConstName("Editor") && ConstName("X") && ConstName("Y")
  {
    assert IdentChar('o') && IdentChar('a') && IdentChar('r') && IdentChar('e') && IdentChar('s');
    assert IdentChar('n') && IdentChar('m') && IdentChar('c') && IdentChar('d') && IdentChar('i') && IdentChar('t');
  }

  /** A block of plain assignments to distinct attribute names is accepted
      on a fresh object of a class without accessors. */
  lemma DistinctBlockAccepted(classes: map<string, ClassDef>, cls: string, b: Block)
    requires ClassOf(classes, cls) == EmptyClass
    requires forall i :: 0 <= i < |b| ==> IvarName(b[i].attr)
    requires forall i, j :: 0 <= i < j < |b| ==> b[i].attr != b[j].attr
    ensures DslAccepts(classes, Allocate(cls), b)
  {
  }

  /** What `define` leaves for a new blueprint of a class that does not exist
      yet. */
  lemma DefineFresh(w: World, name: string, opts: DefineOptions, b: Block, classify: string -> string)
    requires name !in w.registry || opts.force
    requires ConstName(TargetClassName(name, opts, classify))
    requires TargetClassName(name, opts, classify) !in w.classes
    ensures var d := Define(w, name, opts, Some(b), classify);
            var cls := TargetClassName(name, opts, classify);
            && d.result.Ok?
            && name in d.world.registry && d.world.registry[name] == Prototype(cls, Some(b))
            && ClassOf(d.world.classes, cls) == EmptyClass
  {
  }

  /** A block of two literal assignments, and what it assigns. */
  lemma TwoCallBlock(a: string, x: Value, c: string, y: Value)
    requires a != "" && c != ""
    ensures LiteralBlock([Step(a, [Lit(x)]), Step(c, [Lit(y)])])
    ensures Assignments(EmptyClass.writers, [Step(a, [Lit(x)]), Step(c, [Lit(y)])]) == [(a, x), (c, y)]
  {
    var ws := EmptyClass.writers;
    var blk := [Step(a, [Lit(x)]), Step(c, [Lit(y)])];
    assert blk[1..] == [Step(c, [Lit(y)])];
    assert blk[1..][1..] == [];
    assert CallAssignment(ws, c, [y]) == [(c, y)];
    assert CallAssignment(ws, a, [x]) == [(a, x)];
    assert Assignments(ws, blk[1..]) == [(c, y)] + Assignments(ws, []);
    assert Assignments(ws, blk) == [(a, x)] + Assignments(ws, blk[1..]);
    assert LiteralArgs(blk[0].args) && LiteralArgs(blk[1].args);
  }

  /** A block of three literal assignments, and what it assigns. */
  lemma ThreeCallBlock(a: string, x: Value, c: string, y: Value, e: string, z: Value)
    requires a != "" && c != "" && e != ""
    ensures LiteralBlock([Step(a, [Lit(x)]), Step(c, [Lit(y)]), Step(e, [Lit(z)])])
    ensures Assignments(EmptyClass.writers, [Step(a, [Lit(x)]), Step(c, [Lit(y)]), Step(e, [Lit(z)])]) ==
              [(a, x), (c, y), (e, z)]
  {
    var blk := [Step(a, [Lit(x)]), Step(c, [Lit(y)]), Step(e, [Lit(z)])];
    assert blk[1..] == [Step(c, [Lit(y)]), Step(e, [Lit(z)])];
    assert CallAssignment(EmptyClass.writers, a, [x]) == [(a, x)];
    TwoCallBlock(c, y, e, z);
    assert LiteralArgs(blk[0].args);
  }

  lemma AsMapOfTwo(a: string, x: Value, b: string, y: Value)
    ensures AsMap([(a, x), (b, y)]) == map[a := x][b := y]
  {
    assert [(a, x), (b, y)][1..] == [(b, y)];
    assert [(b, y)][1..] == [];
    assert AsMap([(b, y)]) == map[b := y];
  }

  lemma AsMapOfThree(a: string, x: Value, b: string, y: Value, c: string, z: Value)
    ensures AsMap([(a, x), (b, y), (c, z)]) == map[a := x][b := y][c := z]
  {
    assert [(a, x), (b, y), (c, z)][1..] == [(b, y), (c, z)];
    AsMapOfTwo(b, y, c, z);
  }

  lemma FooBlockFacts()
    ensures LiteralBlock(FooBlock)
    ensures forall i :: 0 <= i < |FooBlock| ==> IvarName(FooBlock[i].attr)
    ensures forall i, j :: 0 <= i < j < |FooBlock| ==> FooBlock[i].attr != FooBlock[j].attr
    ensures AsMap(Assignments(EmptyClass.writers, FooBlock) + WithoutClass([])) == map["name" := Str("Hemant Kumar"), "age" := Int(10)]
  {
    TwoCallBlock("name", Str("Hemant Kumar"), "age", Int(10));
    assert IvarName("name") && IvarName("age");
    assert WithoutClass([]) == [];
    assert Assignments(EmptyClass.writers, FooBlock) + WithoutClass([]) == [("name", Str("Hemant Kumar")), ("age", Int(10))];
    AsMapOfTwo("name", Str("Hemant Kumar"), "age", Int(10));
  }

  /** A forced definition of `foo` followed by `Clay(:foo)` yields an object
      that reads `name` and `age` back and tracks exactly those two. `Foo`
      may be absent or the empty class an earlier `define(:foo)` created:
      the test's setup runs again before every case, and `:force` lets the
      second run through. */
  lemma FooScenario(w: World, classify: string -> string, fuel: nat)
    requires classify("foo") == "Foo" && ClassOf(w.classes, "Foo") == EmptyClass
    ensures var d := Define(w, "foo", DefineOptions(None, true), Some(FooBlock), classify);
            var r := Instantiate(d.world, "foo", [], fuel);
            && d.result.Ok?
            && r.result.Ok?
            && var o := r.world.heap[r.result.value];
            && ClayAttributes(o) == Some(map["name" := Str("Hemant Kumar"), "age" := Int(10)])
            && ReadAttribute(r.world.classes, o, "name") == Str("Hemant Kumar")
            && ReadAttribute(r.world.classes, o, "age") == Int(10)
  {
    var opts := DefineOptions(None, true);
    ScenarioClassNames();
    var d := Define(w, "foo", opts, Some(FooBlock), classify);
    assert d.result.Ok? && d.world.registry["foo"] == Prototype("Foo", Some(FooBlock));
    assert ClassOf(d.world.classes, "Foo") == EmptyClass;
    FooBlockFacts();
    DistinctBlockAccepted(d.world.classes, classify("foo"), FooBlock);
    PlainInstance(d.world, "foo", [], fuel, FooBlock);
  }

  lemma BarBlockFacts()
    ensures LiteralBlock(BarBlock)
    ensures forall i :: 0 <= i < |BarBlock| ==> IvarName(BarBlock[i].attr)
    ensures forall i, j :: 0 <= i < j < |BarBlock| ==> BarBlock[i].attr != BarBlock[j].attr
    ensures Assignments(EmptyClass.writers, BarBlock) == [("name", Str("Bar")), ("age", Int(12))]
  {
    TwoCallBlock("name", Str("Bar"), "age", Int(12));
    assert IvarName("name") && IvarName("age");
  }

  /** What `Clay(:bar, :name => "Hemant")` sets: the override replaces the
      block's name. */
  lemma BarOverrideFacts()
    ensures WithoutClass([("name", Str("Hemant"))]) == [("name", Str("Hemant"))]
    ensures AsMap(Assignments(EmptyClass.writers, BarBlock) + WithoutClass([("name", Str("Hemant"))])) == map["name" := Str("Hemant"), "age" := Int(12)]
  {
    BarBlockFacts();
    var ov := [("name", Str("Hemant"))];
    assert WithoutClass(ov) == ov by {
      assert ov[1..] == [];
    }
    var all := [("name", Str("Bar")), ("age", Int(12)), ("name", Str("Hemant"))];
    assert Assignments(EmptyClass.writers, BarBlock) + WithoutClass(ov) == all;
    AsMapOfThree("name", Str("Bar"), "age", Int(12), "name", Str("Hemant"));
    assert map["name" := Str("Bar")]["age" := Int(12)]["name" := Str("Hemant")] == map["name" := Str("Hemant"), "age" := Int(12)];
  }

  /** `Clay(:bar, :name => "Hemant")` reads the overriding name and the
      block's age. */
  lemma OverrideScenario(w: World, classify: string -> string, fuel: nat)
    requires "bar" !in w.registry && classify("bar") == "Bar" && "Bar" !in w.classes
    ensures var d := Define(w, "bar", DefineOptions(None, false), Some(BarBlock), classify);
            var r := Instantiate(d.world, "bar", [("name", Str("Hemant"))], fuel);
            && d.result.Ok?
            && r.result.Ok?
            && var o := r.world.heap[r.result.value];
            && ReadAttribute(r.world.classes, o, "name") == Str("Hemant")
            && ReadAttribute(r.world.classes, o, "age") == Int(12)
  {
    var opts := DefineOptions(None, false);
    ScenarioClassNames();
    DefineFresh(w, "bar", opts, BarBlock, classify);
    var d := Define(w, "bar", opts, Some(BarBlock), classify);
    BarBlockFacts();
    BarOverrideFacts();
    DistinctBlockAccepted(d.world.classes, classify("bar"), BarBlock);
    assert IvarName("name");
    assert SettableAll(d.world.classes, classify("bar"), WithoutClass([("name", Str("Hemant"))]));
    PlainInstance(d.world, "bar", [("name", Str("Hemant"))], fuel, BarBlock);
  }

  lemma LessonBlockFacts()
    ensures LiteralBlock(LessonBlock)
    ensures forall i :: 0 <= i < |LessonBlock| ==> IvarName(LessonBlock[i].attr)
    ensures forall i, j :: 0 <= i < j < |LessonBlock| ==> LessonBlock[i].attr != LessonBlock[j].attr
    ensures AsMap(Assignments(EmptyClass.writers, LessonBlock) + WithoutClass([])) ==
              map["name" := Str("foo"), "content" := Str("bar"), "size" := Int(10)]
  {
    ThreeCallBlock("name", Str("foo"), "content", Str("bar"), "size", Int(10));
    assert IvarName("name") && IvarName("content") && IvarName("size");
    assert WithoutClass([]) == [];
    assert Assignments(EmptyClass.writers, LessonBlock) + WithoutClass([]) == [("name", Str("foo")), ("content", Str("bar")), ("size", Int(10))];
    AsMapOfThree("name", Str("foo"), "content", Str("bar"), "size", Int(10));
  }

  lemma LessonWithoutContentBlockFacts()
    ensures LiteralBlock(LessonWithoutContentBlock)
    ensures forall i :: 0 <= i < |LessonWithoutContentBlock| ==> IvarName(LessonWithoutContentBlock[i].attr)
    ensures forall i, j :: 0 <= i < j < |LessonWithoutContentBlock| ==>
              LessonWithoutContentBlock[i].attr != LessonWithoutContentBlock[j].attr
    ensures AsMap(Assignments(EmptyClass.writers, LessonWithoutContentBlock) + WithoutClass([])) ==
              map["name" := Str("lesson1"), "size" := Int(20)]
  {
    TwoCallBlock("name", Str("lesson1"), "size", Int(20));
    assert IvarName("name") && IvarName("size");
    assert WithoutClass([]) == [];
    assert Assignments(EmptyClass.writers, LessonWithoutContentBlock) + WithoutClass([]) == [("name", Str("lesson1")), ("size", Int(20))];
    AsMapOfTwo("name", Str("lesson1"), "size", Int(20));
  }

  /** Both `Lesson` blueprints are stored, with the one class they share,
      which has no accessors. */
  lemma LessonDefinitions(w: World, classify: string -> string)
    requires "lesson" !in w.registry && "lesson_without_content" !in w.registry
    requires classify("Lesson") == "Lesson" && "Lesson" !in w.classes
    ensures var opts := DefineOptions(Some("Lesson"), false);
            var d1 := Define(w, "lesson", opts, Some(LessonBlock), classify);
            var d2 := Define(d1.world, "lesson_without_content", opts, Some(LessonWithoutContentBlock), classify);
            var cls := classify("Lesson");
            && d1.result.Ok? && d2.result.Ok?
            && "lesson" in d2.world.registry && d2.world.registry["lesson"] == Prototype(cls, Some(LessonBlock))
            && "lesson_without_content" in d2.world.registry
            && d2.world.registry["lesson_without_content"] == Prototype(cls, Some(LessonWithoutContentBlock))
            && ClassOf(d2.world.classes, cls) == EmptyClass
  {
    ScenarioClassNames();
  }

  lemma LessonInstance(w: World, cls: string, fuel: nat)
    requires "lesson" in w.registry && w.registry["lesson"] == Prototype(cls, Some(LessonBlock))
    requires ClassOf(w.classes, cls) == EmptyClass
    ensures var a := Instantiate(w, "lesson", [], fuel);
            && a.result.Ok?
            && a.world.heap[a.result.value].cls == cls
            && ReadAttribute(a.world.classes, a.world.heap[a.result.value], "name") == Str("foo")
            && ReadAttribute(a.world.classes, a.world.heap[a.result.value], "content") == Str("bar")
            && ReadAttribute(a.world.classes, a.world.heap[a.result.value], "size") == Int(10)
  {
    LessonBlockFacts();
    DistinctBlockAccepted(w.classes, cls, LessonBlock);
    PlainInstance(w, "lesson", [], fuel, LessonBlock);
  }

  lemma LessonWithoutContentInstance(w: World, cls: string, fuel: nat)
    requires "lesson_without_content" in w.registry
    requires w.registry["lesson_without_content"] == Prototype(cls, Some(LessonWithoutContentBlock))
    requires ClassOf(w.classes, cls) == EmptyClass
    ensures var b := Instantiate(w, "lesson_without_content", [], fuel);
            && b.result.Ok?
            && var ob := b.world.heap[b.result.value];
            && ob.cls == cls
            && ReadAttribute(b.world.classes, ob, "name") == Str("lesson1")
            && ReadAttribute(b.world.classes, ob, "size") == Int(20)
            && ReadAttribute(b.world.classes, ob, "content") == Nil
  {
    LessonWithoutContentBlockFacts();
    DistinctBlockAccepted(w.classes, cls, LessonWithoutContentBlock);
    PlainInstance(w, "lesson_without_content", [], fuel, LessonWithoutContentBlock);
  }

  /** Instances of the two `Lesson` blueprints, made one after the other:
      both have the shared class, each reads its own block's values, and the
      second, whose block never sets `content`, reads `content` as nil. */
  lemma LessonInstances(w: World, cls: string, fuel: nat)
    requires "lesson" in w.registry && w.registry["lesson"] == Prototype(cls, Some(LessonBlock))
    requires "lesson_without_content" in w.registry
    requires w.registry["lesson_without_content"] == Prototype(cls, Some(LessonWithoutContentBlock))
    requires ClassOf(w.classes, cls) == EmptyClass
    ensures var a := Instantiate(w, "lesson", [], fuel);
            var b := Instantiate(a.world, "lesson_without_content", [], fuel);
            && a.result.Ok? && b.result.Ok?
            && var oa := b.world.heap[a.result.value];
            && var ob := b.world.heap[b.result.value];
            && oa.cls == ob.cls == cls
            && ReadAttribute(b.world.classes, oa, "name") == Str("foo")
            && ReadAttribute(b.world.classes, oa, "content") == Str("bar")
            && ReadAttribute(b.world.classes, oa, "size") == Int(10)
            && ReadAttribute(b.world.classes, ob, "name") == Str("lesson1")
            && ReadAttribute(b.world.classes, ob, "size") == Int(20)
            && ReadAttribute(b.world.classes, ob, "content") == Nil
  {
    LessonInstance(w, cls, fuel);
    var a := Instantiate(w, "lesson", [], fuel);
    LessonWithoutContentInstance(a.world, cls, fuel);
  }

  /** The test for existing classes as written. ActiveSupport's `classify`
      singularizes before it camelizes, and its rule for a trailing `s`
      turns "emacs" into "Emac", so `define(:emacs)` targets `Emac`, not the
      `Emacs` the test opens (which sits in the test class's body anyway).
      `define` creates an empty top-level `Emac`, the block's
      `e.name "Editor"` reaches `method_missing`, and the instance reads
      `name` as "Editor". */
  lemma EmacsScenario(w: World, classify: string -> string, fuel: nat)
    requires "emacs" !in w.registry && classify("emacs") == "Emac" && "Emac" !in w.classes
    ensures var d := Define(w, "emacs", DefineOptions(None, false), Some(EmacsBlock), classify);
            var r := Instantiate(d.world, "emacs", [], fuel);
            && d.result.Ok?
            && r.result.Ok?
            && ReadAttribute(r.world.classes, r.world.heap[r.result.value], "name") == Str("Editor")
  {
    var opts := DefineOptions(None, false);
    ScenarioClassNames();
    DefineFresh(w, "emacs", opts, EmacsBlock, classify);
    var d := Define(w, "emacs", opts, Some(EmacsBlock), classify);
    EmacsBlockFacts();
    DistinctBlockAccepted(d.world.classes, "Emac", EmacsBlock);
    PlainInstance(d.world, "emacs", [], fuel, EmacsBlock);
  }

  lemma EmacsBlockFacts()
    ensures LiteralBlock(EmacsBlock)
    ensures forall i :: 0 <= i < |EmacsBlock| ==> IvarName(EmacsBlock[i].attr)
    ensures AsMap(Assignments(EmptyClass.writers, EmacsBlock) + WithoutClass([])) == map["name" := Str("Editor")]
  {
    assert LiteralArgs(EmacsBlock[0].args) && IvarName("name");
    assert WithoutClass([]) == [];
    assert CallAssignment(EmptyClass.writers, "name", [Str("Editor")]) == [("name", Str("Editor"))];
    assert EmacsBlock[1..] == [];
    assert Assignments(EmptyClass.writers, EmacsBlock) == [("name", Str("Editor"))] + Assignments(EmptyClass.writers, []);
    assert [("name", Str("Editor"))][1..] == [];
    assert AsMap([("name", Str("Editor"))]) == map["name" := Str("Editor")] + map[];
  }

  /** A blueprint `editor` for an existing top-level class `Editor` with
      `attr_accessor :name`: `define` reuses the class, the block's
      `e.name "Editor"` goes to the native reader, which refuses the
      argument, so instantiation raises instead of setting the name. */
  lemma ExistingAccessorScenario(w: World, classify: string -> string, fuel: nat)
    requires "editor" !in w.registry && classify("editor") == "Editor"
    requires "Editor" in w.classes && w.classes["Editor"] == ClassDef({"name"}, {"name"})
    ensures var d := Define(w, "editor", DefineOptions(None, false), Some(EmacsBlock), classify);
            && d.result.Ok?
            && Instantiate(d.world, "editor", [], fuel).result == Err(ArgumentError("name"))
  {
    ScenarioClassNames();
    var d := Define(w, "editor", DefineOptions(None, false), Some(EmacsBlock), classify);
    var id := |d.world.heap|;
    var w1 := d.world.(heap := d.world.heap + [Allocate("Editor")]);
    assert IvarName("name");
    NativeReaderRejectsDslCall(w1, id, "name", Str("Editor"), [], fuel);
    assert [Step("name", [Lit(Str("Editor"))])] + [] == EmacsBlock;
  }

  /** The same existing class, with the block written `e.name = "Editor"`:
      the call goes to the class's writer, so instantiation goes through,
      `name` reads "Editor", and nothing is tracked. */
  lemma NativeWriterScenario(w: World, classify: string -> string, fuel: nat)
    requires "editor" !in w.registry && classify("editor") == "Editor"
    requires "Editor" in w.classes && w.classes["Editor"] == ClassDef({"name"}, {"name"})
    ensures var d := Define(w, "editor", DefineOptions(None, false), Some(NameWriterBlock), classify);
            var r := Instantiate(d.world, "editor", [], fuel);
            && d.result.Ok?
            && r.result.Ok?
            && ReadAttribute(r.world.classes, r.world.heap[r.result.value], "name") == Str("Editor")
            && ClayAttributes(r.world.heap[r.result.value]) == None
  {
    ScenarioClassNames();
    var d := Define(w, "editor", DefineOptions(None, false), Some(NameWriterBlock), classify);
    var id := |d.world.heap|;
    var w1 := d.world.(heap := d.world.heap + [Allocate("Editor")]);
    NativeWriterCall(w1, id, "name", Str("Editor"), fuel);
    assert "name" + "=" == "name=";
    assert WithoutClass([]) == [];
  }

  lemma XBlockFacts()
    ensures LiteralBlock(XBlock)
    ensures forall i :: 0 <= i < |XBlock| ==> IvarName(XBlock[i].attr)
    ensures forall i, j :: 0 <= i < j < |XBlock| ==> XBlock[i].attr != XBlock[j].attr
    ensures AsMap(Assignments(EmptyClass.writers, XBlock) + WithoutClass([])) == map["name" := Str("x"), "age" := Int(20)]
  {
    TwoCallBlock("name", Str("x"), "age", Int(20));
    assert IvarName("name") && IvarName("age");
    assert WithoutClass([]) == [];
    assert Assignments(EmptyClass.writers, XBlock) + WithoutClass([]) == [("name", Str("x")), ("age", Int(20))];
    AsMapOfTwo("name", Str("x"), "age", Int(20));
  }

  /** `Clay(:x)`: a new object, the next one on the heap, reading `name` as
      "x" and `age` as 20. */
  lemma XInstance(w: World, cx: string, fuel: nat)
    requires "x" in w.registry && w.registry["x"] == Prototype(cx, Some(XBlock))
    requires ClassOf(w.classes, cx) == EmptyClass
    ensures var r := Instantiate(w, "x", [], fuel);
            && r.result.Ok?
            && r.result.value == |w.heap|
            && ReadAttribute(r.world.classes, r.world.heap[r.result.value], "name") == Str("x")
            && ReadAttribute(r.world.classes, r.world.heap[r.result.value], "age") == Int(20)
  {
    XBlockFacts();
    DistinctBlockAccepted(w.classes, cx, XBlock);
    PlainInstance(w, "x", [], fuel, XBlock);
  }

  /** `y.sex 'm'` on a fresh object of a class without accessors. */
  lemma SexStep(w: World, id: ObjId)
    requires id < |w.heap| && w.heap[id] == Allocate(w.heap[id].cls)
    requires ClassOf(w.classes, w.heap[id].cls) == EmptyClass
    ensures var sent := SendTo(w, id, "sex", [Str("m")]);
            && sent.result.Ok?
            && sent.world.classes == w.classes
            && sent.world.heap == w.heap[id := sent.world.heap[id]]
            && sent.world.heap[id].cls == w.heap[id].cls
            && sent.world.heap[id].singletonReaders == {"sex"}
            && ReadAttribute(w.classes, sent.world.heap[id], "sex") == Str("m")
  {
    assert IvarName("sex");
  }

  /** `y.profile Clay(:x)` after `y.sex 'm'`: the object keeps `sex` and
      answers `profile` with the nested instance, which is left as it was
      made. */
  lemma ProfileStep(w: World, id: ObjId, j: ObjId)
    requires id < |w.heap| && j < |w.heap| && j != id
    requires ClassOf(w.classes, w.heap[id].cls) == EmptyClass
    requires w.heap[id].singletonReaders == {"sex"}
    requires ReadAttribute(w.classes, w.heap[id], "sex") == Str("m")
    ensures var sent := SendTo(w, id, "profile", [Ref(j)]);
            && sent.result.Ok?
            && sent.world.classes == w.classes
            && sent.world.heap[j] == w.heap[j]
            && ReadAttribute(w.classes, sent.world.heap[id], "sex") == Str("m")
            && ReadAttribute(w.classes, sent.world.heap[id], "profile") == Ref(j)
  {
    assert IvarName("profile");
  }

  /** Evaluating the argument `Clay(:x)` makes the `x` instance, the next
      object on the heap, and yields a reference to it. */
  lemma NestedXArg(w: World, cx: string, fuel: nat)
    requires fuel > 0
    requires "x" in w.registry && w.registry["x"] == Prototype(cx, Some(XBlock))
    requires ClassOf(w.classes, cx) == EmptyClass
    ensures var ev := EvalArgs(w, [Nested("x", [])], fuel);
            && ev.result == Ok([Ref(|w.heap|)])
            && |w.heap| < |ev.world.heap| && ev.world.classes == w.classes
            && ReadAttribute(w.classes, ev.world.heap[|w.heap|], "name") == Str("x")
            && ReadAttribute(w.classes, ev.world.heap[|w.heap|], "age") == Int(20)
  {
    XInstance(w, cx, fuel - 1);
    var inner := Instantiate(w, "x", [], fuel - 1);
    assert [Nested("x", [])][1..] == [];
    assert EvalArgs(inner.world, [], fuel) == Outcome(inner.world, Ok([]));
    assert [Ref(inner.result.value)] + [] == [Ref(|w.heap|)];
  }

  /** The second call of `y`'s block, `profile Clay(:x)`, on an object that
      has already taken `sex 'm'`. */
  lemma ProfileCall(w: World, id: ObjId, cx: string, fuel: nat)
    requires id < |w.heap| && fuel > 0
    requires ClassOf(w.classes, w.heap[id].cls) == EmptyClass
    requires w.heap[id].singletonReaders == {"sex"}
    requires ReadAttribute(w.classes, w.heap[id], "sex") == Str("m")
    requires "x" in w.registry && w.registry["x"] == Prototype(cx, Some(XBlock))
    requires ClassOf(w.classes, cx) == EmptyClass
    ensures var r := RunBlock(w, id, [Step("profile", [Nested("x", [])])], fuel);
            var j := |w.heap|;
            && r.result.Ok?
            && j < |r.world.heap| && r.world.classes == w.classes
            && ReadAttribute(w.classes, r.world.heap[id], "sex") == Str("m")
            && ReadAttribute(w.classes, r.world.heap[id], "profile") == Ref(j)
            && ReadAttribute(w.classes, r.world.heap[j], "name") == Str("x")
            && ReadAttribute(w.classes, r.world.heap[j], "age") == Int(20)
  {
    NestedXArg(w, cx, fuel);
    var ev := EvalArgs(w, [Nested("x", [])], fuel);
    assert ev.world.heap[id] == w.heap[id];
    ProfileStep(ev.world, id, |w.heap|);
    var sent := SendTo(ev.world, id, "profile", [Ref(|w.heap|)]);
    assert [Step("profile", [Nested("x", [])])][1..] == [];
    assert RunBlock(w, id, [Step("profile", [Nested("x", [])])], fuel) == Outcome(sent.world, Ok(()));
  }

  /** Replaying `y`'s block on a fresh object: the first call sets `sex`,
      the second makes the nested `x` instance, the next object on the heap,
      and stores a reference to it under `profile`. */
  lemma YReplay(w: World, id: ObjId, cx: string, fuel: nat)
    requires id < |w.heap| && fuel > 0
    requires w.heap[id] == Allocate(w.heap[id].cls) && ClassOf(w.classes, w.heap[id].cls) == EmptyClass
    requires "x" in w.registry && w.registry["x"] == Prototype(cx, Some(XBlock))
    requires ClassOf(w.classes, cx) == EmptyClass
    ensures var r := RunBlock(w, id, YBlock, fuel);
            var j := |w.heap|;
            && r.result.Ok?
            && j < |r.world.heap| && r.world.classes == w.classes
            && ReadAttribute(w.classes, r.world.heap[id], "sex") == Str("m")
            && ReadAttribute(w.classes, r.world.heap[id], "profile") == Ref(j)
            && ReadAttribute(w.classes, r.world.heap[j], "name") == Str("x")
            && ReadAttribute(w.classes, r.world.heap[j], "age") == Int(20)
  {
    EvalLiteralArgs(w, [Lit(Str("m"))], fuel);
    SexStep(w, id);
    var w2 := SendTo(w, id, "sex", [Str("m")]).world;
    assert YBlock[1..] == [Step("profile", [Nested("x", [])])];
    assert RunBlock(w, id, YBlock, fuel) == RunBlock(w2, id, YBlock[1..], fuel);
    ProfileCall(w2, id, cx, fuel);
  }

  /** The association test: `Clay(:y)` yields an object whose `sex` reads
      'm' and whose `profile` is a different, new object that reads `name`
      as "x" and `age` as 20. */
  lemma AssociationScenario(w: World, classify: string -> string, fuel: nat)
    requires "x" !in w.registry && "y" !in w.registry
    requires classify("x") == "X" && classify("y") == "Y" && "X" !in w.classes && "Y" !in w.classes
    requires fuel > 0
    ensures var dx := Define(w, "x", DefineOptions(None, false), Some(XBlock), classify);
            var dy := Define(dx.world, "y", DefineOptions(None, false), Some(YBlock), classify);
            var r := Instantiate(dy.world, "y", [], fuel);
            && dx.result.Ok? && dy.result.Ok? && r.result.Ok?
            && var o := r.world.heap[r.result.value];
            && ReadAttribute(r.world.classes, o, "sex") == Str("m")
            && ReadAttribute(r.world.classes, o, "profile").Ref?
            && var j := ReadAttribute(r.world.classes, o, "profile").id;
            && j < |r.world.heap| && j != r.result.value
            && ReadAttribute(r.world.classes, r.world.heap[j], "name") == Str("x")
            && ReadAttribute(r.world.classes, r.world.heap[j], "age") == Int(20)
  {
    ScenarioClassNames();
    var opts := DefineOptions(None, false);
    DefineFresh(w, "x", opts, XBlock, classify);
    var dx := Define(w, "x", opts, Some(XBlock), classify);
    DefineFresh(dx.world, "y", opts, YBlock, classify);
    var dy := Define(dx.world, "y", opts, Some(YBlock), classify);
    var w0 := dy.world;
    var id := |w0.heap|;
    var w1 := w0.(heap := w0.heap + [Allocate("Y")]);
    YReplay(w1, id, "X", fuel);
    assert CopyClayAttributes(w1, id, w0.registry["y"], fuel) == RunBlock(w1, id, YBlock, fuel);
    assert WithoutClass([]) == [];
  }
}

=== FILE: types.dfy ===
/** The data model shared by the blueprint registry, the instance factory and
    the per-instance attribute store.

    A running Ruby process is abstracted into a `World`: the registry of
    defined blueprints (`@@defined_clays`), the environment of top-level
    classes (constants of `Object`) and a heap of allocated objects. An object
    is identified by its index in the heap, so allocation appends and an
    identity is never reused.
 */
module ClayTypes {

  /** Ruby's `nil`-or-value, used for the tracking map that stays `nil`
      until the first attribute is set. */
  datatype Option<+T> = None | Some(value: T) {
    function GetOr(default: T): T {
      match this
      case Some(v) => v
      case None => default
    }
  }

  /** Heap index of an allocated object. */
  type ObjId = nat

  /** Attribute values. `Ref` is an association: a reference to another
      object, typically one produced by a nested blueprint instantiation. */
  datatype Value = Nil | Bool(b: bool) | Int(i: int) | Str(s: string) | Ref(id: ObjId)

  /** The accessors a class defines natively (`attr_writer`, `attr_reader`,
      `attr_accessor`), by attribute name: `name` in `writers` means the
      class answers `name=`. */
  datatype ClassDef = ClassDef(writers: set<string>, readers: set<string>)

  /** The class `Class.new()` creates: it adds no accessor of its own. */
  const EmptyClass := ClassDef({}, {})

  /** An object extended with the attribute-store mixin.
      - `fields`: its instance variables, without the leading `@`;
      - `singletonReaders`: readers synthesized on this one object;
      - `tracked`: the `@clay_attributes` map, `None` until the first set. */
  datatype Obj = Obj(
    cls: string,
    fields: map<string, Value>,
    singletonReaders: set<string>,
    tracked: Option<map<string, Value>>)

  /** A freshly allocated object: no instance variable, no singleton method,
      no tracking map (`allocate` runs no initializer). */
  function Allocate(cls: string): (o: Obj)
  {
    Obj(cls, map[], {}, None)
  }

  /** An argument of a DSL call inside a creation block: a literal, or a
      nested `ClayBlueprint::Clay(name, options)` evaluated when the call is
      made. */
  datatype Arg = Lit(v: Value) | Nested(blueprint: string, options: seq<(string, Value)>)

  /** One DSL call `f.attr arg1, arg2, ...` issued by a creation block. */
  datatype Step = Step(attr: string, args: seq<Arg>)

  /** A creation block, abstracted to the DSL calls it issues, in order. */
  type Block = seq<Step>

  /** The prototype object stored in the registry: its class and the
      creation block bound to it (`@clay_creation_block`). */
  datatype Prototype = Prototype(cls: string, creationBlock: Option<Block>)

  /** Options of `Clay.define`: `:class` and `:force`. */
  datatype DefineOptions = DefineOptions(cls: Option<string>, force: bool)

  datatype World = World(
    registry: map<string, Prototype>,
    classes: map<string, ClassDef>,
    heap: seq<Obj>)

  /** The exceptions the core raises, plus the Ruby errors its dispatch can
      run into. `StackLevelTooDeep` stands for exhausting the nesting bound. */
  datatype ClayError =
    | InvalidClay(name: string)
    | InvalidClayCreationBlock
    | DuplicateClayDefinition(name: string)
    | ArgumentError(selector: string)
    | NameError(name: string)
    | StackLevelTooDeep

  datatype Result<+T> = Ok(value: T) | Err(error: ClayError)

  /** The world after an operation together with what it returned or raised.
      A raised exception does not roll back what was done before it. */
  datatype Outcome<+T> = Outcome(world: World, result: Result<T>)

  /** The class a name denotes in the environment; an unknown name behaves as
      a class without accessors. */
  function ClassOf(classes: map<string, ClassDef>, c: string): ClassDef {
    if c in classes then classes[c] else EmptyClass
  }

  /** The empty map updated, left to right, by every pair of `pairs`: a later pair wins
      over an earlier one with the same key, as a Ruby Hash literal does. */
  function AsMap(pairs: seq<(string, Value)>): map<string, Value> {
    if |pairs| == 0 then map[]
    else map[pairs[0].0 := pairs[0].1] + AsMap(pairs[1..])
  }

  /** Last-write-wins is compositional: the map of a concatenation is the
      first map overridden by the second. */
  lemma {:induction false} AsMapAppend(a: seq<(string, Value)>, b: seq<(string, Value)>)
    ensures AsMap(a + b) == AsMap(a) + AsMap(b)
  {
    if |a| == 0 {
      assert a + b == b;
    } else {
      assert (a + b)[1..] == a[1..] + b;
      AsMapAppend(a[1..], b);
      var head := map[a[0].0 := a[0].1];
      assert AsMap(a + b) == head + (AsMap(a[1..]) + AsMap(b));
      MapUnionAssoc(head, AsMap(a[1..]), AsMap(b));
    }
  }

  lemma MapUnionAssoc(x: map<string, Value>, y: map<string, Value>, z: map<string, Value>)
    ensures x + (y + z) == (x + y) + z
  {
  }

  /** A key is in the map exactly when some pair carries it. */
  lemma {:induction false} AsMapKeys(pairs: seq<(string, Value)>, k: string)
    ensures k in AsMap(pairs) <==> exists i :: 0 <= i < |pairs| && pairs[i].0 == k
  {
    if |pairs| > 0 {
      AsMapKeys(pairs[1..], k);
      if k in AsMap(pairs[1..]) {
        var i :| 0 <= i < |pairs[1..]| && pairs[1..][i].0 == k;
        assert pairs[i + 1].0 == k;
      }
      if exists i :: 0 <= i < |pairs| && pairs[i].0 == k {
        var i :| 0 <= i < |pairs| && pairs[i].0 == k;
        if i > 0 {
          assert pairs[1..][i - 1].0 == k;
        }
      }
    }
  }

  /** The value a key gets is the one of its LAST occurrence. */
  lemma {:induction false} AsMapLastWins(pairs: seq<(string, Value)>, i: nat)
    requires i < |pairs|
    requires forall j :: i < j < |pairs| ==> pairs[j].0 != pairs[i].0
    ensures pairs[i].0 in AsMap(pairs) && AsMap(pairs)[pairs[i].0] == pairs[i].1
  {
    if i > 0 {
      AsMapLastWins(pairs[1..], i - 1);
    } else {
      AsMapKeys(pairs[1..], pairs[0].0);
    }
  }
}
